=== FILE: README.md ===
# language-parser in Dafny

This project models the front end of the ServerLang interpreter in
`src/main.cpp`. The front end has three parts that run in order:

- **Tokenizer.** `Tokenizer::evaluate` is a single pass over the source bytes. It
  keeps one open accumulator token and a list of finished tokens. `end_token`
  flushes the accumulator. `get_span` is the cursor helper that collects
  tokens up to a delimiter.
- **Node model.** `ServerLang::Type`, the `ASTNode` class hierarchy, the
  `keywords` and `type_map` registries, and the two `get_type_instance`
  factories.
- **Syntax analyzer.** `SyntaxAnalyzer` is a recursive-descent state machine
  over a token cursor. It turns the token list into a forest of nullable
  nodes. It has declaration grammars for `var`, `const` and `def`, expression
  classification, and a brace-depth scanner whose block is analyzed
  recursively into a `Scope`.

Files:

- `options.dfy`: the nullable handle (`Option`).
- `tokens.dfy`: tokens, character classes, and C-string (`c_str()`) semantics.
- `tokenizer.dfy`: `Step`, a fold over the bytes (`Run`/`Evaluate`), and `GetSpan`.
- `tokenizer_lemmas.dfy`: what the tokenizer can emit, flushing, string literals and comments.
- `nodes.dfy`: the node datatype, constructors, registries and factories.
- `analyzer.dfy`: the analyzer. The iterator becomes an index.
- `analyzer_lemmas.dfy`: brace balance, scope children, declaration typing, stalls, forest size.
- `pipeline.dfy`: the tokenizer and analyzer composed.

How the analyzer is modelled:

- A run of `analyze` ends in `Done(forest)`, `Hangs` or `Fault`.
- `Hangs`: the source loops forever. This happens on `return`, `for`,
  `while` or `if` in the idle state, because neither the state nor the
  cursor changes.
- `Fault`: the source has undefined behaviour. This happens on an unknown
  function return type, where `type_map.find(...)->second` is taken on
  `end()`. It also happens on a `const` whose type annotation failed and that
  is followed by a `= {` initializer, which dereferences a null node.
- Reading past the end of the token list yields a blank sentinel token, and
  every scan stops at the end (see "Left out").

## Model

| member | source | states |
|---|---|---|
| Tokens.CStr | src/main.cpp:259-264 | The key a `const char *` comparison sees is a prefix of the text, holds no NUL, and stops exactly at the first NUL. |
| Tokenizer.Find | src/main.cpp:666-669 | The scan stops at the first token whose text and kind both match the delimiter, or at the end. Every token it passes over fails the test. |
| Tokenizer.GetSpan | src/main.cpp:664-672 | The span followed by the rest from the cursor is exactly the input from the start position. The span holds no delimiter. The cursor is left on the delimiter, not past it, or at the end. |
| Tokenizer.EndToken | src/main.cpp:657-662 | `end_token` resets the accumulator to the sentinel and only appends to the output. It appends exactly the open token, and only when that token is not the `WHITE_SPACE` sentinel, so the count of emitted plus pending tokens is unchanged. |
| Tokenizer.Step | src/main.cpp:520-653 | One byte of the `switch` never removes or rewrites an emitted token, and it adds at most one token to the emitted-plus-pending count. |
| Tokenizer.Run | src/main.cpp:520-653 | Over a run of bytes the emitted list only grows, and the emitted-plus-pending count grows by at most the number of bytes. |
| Tokenizer.Evaluate | src/main.cpp:517-655 | `evaluate` returns at most one token per source byte. |
| TokenizerLemmas.StepKeepsInv | src/main.cpp:521-652 | Every branch of the byte switch preserves this loop invariant for emitted and pending tokens: never the `WHITE_SPACE` sentinel, never `KEYWORD` or `GARBAGE_TYPE`, no quote, CR or LF in the text, and a punctuator starts with a punctuator byte. |
| TokenizerLemmas.EvaluateEmittable | src/main.cpp:517-662 | No token `evaluate` returns is the `WHITE_SPACE` sentinel or a `KEYWORD`, and no token text holds a quote, CR or LF. |
| TokenizerLemmas.NoAssignPunctuator | src/main.cpp:613-625 | `=` is never emitted as a `PUNCTUATOR`; it is only an arithmetic operator or literal text. |
| TokenizerLemmas.RunAppend | src/main.cpp:520-653 | Feeding `a + b` is feeding `a` and then `b` from the state `a` left behind. |
| TokenizerLemmas.RunOnlyAppends | src/main.cpp:657-662 | Only `end_token` touches the output, and only by appending, so the emitted list only grows. |
| TokenizerLemmas.EvaluatePrefix | src/main.cpp:517-655 | Single pass with no backtracking: the tokens of a prefix are a prefix of the tokens of the whole input. |
| TokenizerLemmas.LineBreakFlushes | src/main.cpp:626-629 | A CR or LF at the end of the input adds exactly the token that was open to the output (nothing for the sentinel) and resets the accumulator. |
| TokenizerLemmas.WordsEmitNothing | src/main.cpp:522-542 | Letters, `_` and digits only extend the open token, so such input on its own emits nothing when `evaluate` returns. |
| TokenizerLemmas.PunctuatorStep | src/main.cpp:543-557 | Outside a string or comment, each of `{ } ( ) ; , @` flushes the open token and then emits exactly one one-byte `PUNCTUATOR`. |
| TokenizerLemmas.DoubleColonStep | src/main.cpp:558-564 | A `:` on a pending `:` punctuator becomes a single `ACCESS_OPERATOR` "::" and is flushed. |
| TokenizerLemmas.SingleColonStep | src/main.cpp:564-571 | Any other `:` outside a string or comment flushes the open token and leaves ":" pending as a `PUNCTUATOR`. |
| TokenizerLemmas.DigitStep | src/main.cpp:522-528 | A digit starts a `NUMERIC_LITERAL` on an empty accumulator. Otherwise it is appended to the open token, whose kind is kept, in any mode. Nothing is emitted. |
| TokenizerLemmas.RetagStep | src/main.cpp:530-625 | Outside a string or comment, a letter or `_`, one of `! & \| > <`, or one of `+ - ^ =` retags the whole open token and appends the byte, without flushing: to `IDENTIFIER`, `LOGIC_OPERATOR` or `ARITHMETIC_OPERATOR` respectively. |
| TokenizerLemmas.RetagFlushStep | src/main.cpp:572-591 | Outside a string or comment, `$`, and `.` unless a number is open, retag the whole open token as `POINTER_OPERATOR` or `ACCESS_OPERATOR`, append the byte and flush it. There is no flush before, so the open text is part of the emitted operator. |
| TokenizerLemmas.BlankStep | src/main.cpp:630-637 | Outside a string or comment, a tab or space flushes the open token and nothing more. |
| TokenizerLemmas.DropStep | src/main.cpp:646-651 | Outside a string or comment, a byte that no case of the `switch` names leaves the state unchanged: it is dropped. |
| TokenizerLemmas.AssignRetagExample | src/main.cpp:530-636 | `x= ` tokenizes to the single `ARITHMETIC_OPERATOR` "x=". |
| TokenizerLemmas.DigitsThenLettersExample | src/main.cpp:522-636 | `1a ` tokenizes to the single `IDENTIFIER` "1a". |
| TokenizerLemmas.LiteralStep | src/main.cpp:521-652 | Inside a string or comment every byte other than CR, LF and `"` is appended verbatim and nothing is emitted. |
| TokenizerLemmas.StringLiteralRoundTrip | src/main.cpp:638-645 | A quoted text with no quote or line break, not starting with `//`, becomes exactly one `STRING_LITERAL` token holding the text without its quotes. The open token is flushed first. |
| TokenizerLemmas.QuotedSlashesOpenComment | src/main.cpp:613-615 | A string literal that starts with `//` turns into a `COMMENT`, because the retagging test ignores the mode. |
| TokenizerLemmas.CommentBody | src/main.cpp:638-651 | Inside a comment, a line's bytes are kept except quotes, which are dropped. |
| TokenizerLemmas.LineCommentRoundTrip | src/main.cpp:613-629 | `//` on an empty accumulator opens a `COMMENT` that only a CR or LF ends. It is emitted as "//" plus the line without its quotes. |
| Nodes.PreferredWrites | src/main.cpp:100-406 | While a node is built, `m_preferredType` is first written by the base `ASTNode` initializer, as `UNDEFINED`. The constructor chain writes at most once per class level, and the last value written is the node's own type, or `EXPRESSION` for an expression class. |
| Nodes.Construct | src/main.cpp:100-406 | A freshly constructed node has the requested type, the default id and no children. Its preferred type is its own type, or `EXPRESSION` for an expression class. It carries expression fields exactly when it is an expression, and function fields exactly when it is a `Function`. |
| Nodes.PreferredIsOwnKind | src/main.cpp:184-256 | A freshly constructed node's preferred type is its own type exactly when it is not an expression class. The five expression classes keep the `EXPRESSION` that the base constructor wrote. |
| Nodes.InstanceOf | src/main.cpp:410-450 | A node the factory builds has the requested type, which is never an expression type. Its preferred type is that type, it has the default id, and it has no children. |
| Nodes.FactoryMatchesRegistry | src/main.cpp:271-281 | `get_type_instance(Type)` builds a node for exactly the types `type_map` names. |
| Nodes.InstanceNamed | src/main.cpp:452-455 | The by-name factory yields a node of the registered type, whose preferred type equals its type and which is not an expression. |
| Nodes.DisplayNameInjective | src/main.cpp:100-406 | `type_string()` (`DisplayName`) tells every class apart: two classes with the same display name are the same class. |
| Nodes.KeywordsAreNotTypes | src/main.cpp:266-281 | No reserved word is a registered type name. |
| Analyzer.MoveToNextEnd | src/main.cpp:746-753 | The cursor ends one past the first matching punctuator (or past the end), and no token it skipped matches. |
| Analyzer.BlockEnd | src/main.cpp:817-838 | The brace scan stops on a `}` or at the end, never before its start. |
| Analyzer.CompoundBody | src/main.cpp:817-838 | The collected block is exactly the tokens between the cursor and where the scan stopped. |
| Analyzer.ParamLoop | src/main.cpp:855-869 | The parameter loop never moves back and stops on a `)` or at the end. Which `)` it stops on is stated by AnalyzerLemmas.ParamLoopBalanced. |
| Analyzer.ParamList | src/main.cpp:855-869 | The cursor ends just past a `)` (or past the end), strictly after where it started. Which `)` it passes is stated by AnalyzerLemmas.ParamListCloses. |
| Analyzer.Classify | src/main.cpp:791-809 | The expression classifier yields the null node, a call node or an assignment node. |
| Analyzer.ClassifyShapes | src/main.cpp:787-815 | The result is non-null iff the span holds a `(` or `=` punctuator. It is a call iff a `(` comes before every `=`. It is an assignment only if an `=` punctuator is present. |
| Analyzer.CheckExpression | src/main.cpp:787-815 | The cursor does not move back. The node is well formed. Without `=` punctuators in the input it is never an assignment. |
| AnalyzerLemmas.ExpressionShape | src/main.cpp:787-815 | The cursor stops on the first `;` punctuator at or after the start, or at the end of the list. The node is non-null iff a `(` or `=` punctuator lies in between. It is a call iff a `(` comes before every `=` there. It is an assignment only if an `=` punctuator lies there. |
| Analyzer.Declared | src/main.cpp:878-897 | `get_type_instance(name)` then `setId`: the node has the type registered under the name, the given id, no children, and its own type as preferred type. It is never an expression. |
| Analyzer.TypeAnnotation | src/main.cpp:876-908 | A declared node has a registered type, no children, and the declaration's name cut at the first NUL as its id. |
| Analyzer.Analyze | src/main.cpp:697-739 | With no loop keyword, `analyze` never reaches `Hangs` (reads past the end aside, see "Left out"). With only `var`, expressions and junk, it also never reaches `Fault` (reads past the end aside). Every node in the forest is well formed. No `=` punctuator means no assignment node anywhere in the forest. |
| Analyzer.AnalyzeFrom | src/main.cpp:697-739 | The same guarantees hold for the loop from any cursor position, with the same caveat about reads past the end. |
| Analyzer.Statement | src/main.cpp:755-780 | One idle dispatch plus its handler moves the cursor strictly forward. It pushes exactly one entry iff the token under the cursor is an identifier. |
| Analyzer.Initializer | src/main.cpp:910-925 | An initializer yields a scope node iff it is `=` followed by `{`. Anything else yields no node. Without `=` the cursor stays put. An `=` not followed by `{` leaves the cursor just past the next `;` punctuator after the `=`. |
| Analyzer.CheckVariableDecl | src/main.cpp:871-929 | The cursor moves forward. The node is well formed. With no loop keyword, the handler never reaches `Hangs`. With no loop keyword, `const` or `def` anywhere in the list, it never reaches `Fault` either. Both hold with reads past the end aside (see "Left out"). |
| Analyzer.ConstNameAt | src/main.cpp:937-942 | The declared name is one token past the cursor exactly when the token under the cursor is an `@`, and otherwise it is at the cursor. |
| Analyzer.CheckConstDecl | src/main.cpp:931-996 | The cursor moves forward, the node is well formed, and without a loop keyword the handler does not stall. |
| Analyzer.WithInitializer | src/main.cpp:977-995 | A `const` ends where its initializer ends. Its node is null iff the annotation's is. Otherwise it keeps the annotation's kind, id and preferred type, and the initializer's scope, when there is one, is appended to its children. |
| Analyzer.AfterParams | src/main.cpp:1013-1020 | After a function's name the cursor ends strictly past the token after the name. |
| Analyzer.CheckFnDecl | src/main.cpp:1006-1045 | The cursor moves forward, the node is well formed, and without a loop keyword the handler does not stall. |
| Analyzer.FnHeader | src/main.cpp:1006-1031 | The part before the body never stalls. When it does not fail, it gives a well-formed `Function` node with no children, named after the token under the cursor, and the body's `{` is looked for at least three tokens on. |
| Analyzer.FnBody | src/main.cpp:1032-1039 | Parsing or skipping the body moves the cursor forward. |
| Analyzer.CheckCompound | src/main.cpp:840-853 | The result is always a well-formed `Scope` node. The cursor ends past where it started. |
| AnalyzerLemmas.BlockEndBalanced | src/main.cpp:817-838 | The running brace depth stays at least 1 up to the stop. The `}` it stops on brings the depth to 0. |
| AnalyzerLemmas.CompoundBodyBalanced | src/main.cpp:817-838 | Every prefix of the block has no more `}` than `{`. The cursor stops on a `}`, and the block it closes is balanced. |
| AnalyzerLemmas.ParamLoopBalanced | src/main.cpp:855-869 | When every `(` is one the loop tests, the parenthesis depth counted from the start never drops below 0 up to the stop. When it stops before the end, the `)` it stops on is the first one that takes the depth to -1, so it closes the enclosing group. |
| AnalyzerLemmas.ParamListCloses | src/main.cpp:855-869 | Under the same condition, `check_for_parameter_list` leaves the cursor just past the `)` that closes the group: the depth is -1 there and at least 0 before it. |
| AnalyzerLemmas.NestedFirstParamDropsReturnType | src/main.cpp:855-869 | The loop never tests the first token of a level for `(`. So in `def f((a)): I32 { } g { }` it stops on the inner `)`, and the outer `)` stands where the `:` is expected. The declaration finishes with a `Function` node `f` whose return type is `Void`. The cursor ends at the end of the list, because the block of `g` is taken as the body of `f`. |
| AnalyzerLemmas.CompoundScope | src/main.cpp:840-853 | The scope's children are exactly what `analyze` returns for the block, in order. The cursor ends one past the closing `}`. |
| AnalyzerLemmas.AnnotationCases | src/main.cpp:876-908 | A registered type after `:` gives that type. An unregistered identifier or no `:` gives `Variant`. A non-identifier after `:` gives null. A node has the name as its id and its type as its preferred type. |
| AnalyzerLemmas.KeywordTypeIsVariant | src/main.cpp:876-897 | A reserved word after `:` is never a registered type, so it types the declaration as `Variant`. |
| AnalyzerLemmas.VarDeclTyping | src/main.cpp:871-929 | The same typing applies to a whole `var` declaration, and its node never has children. |
| AnalyzerLemmas.ConstDeclShape | src/main.cpp:931-996 | `const` reads the annotation after the name, which follows an optional `@`. The node's id is the token after a leading `@`, or the token under the cursor when there is no `@`. Its node keeps that annotation's kind, id and preferred type, so it is typed as `var` is. A block initializer's scope becomes the node's only child, and without a block initializer there are no children. A null node with a block initializer is undefined behaviour. |
| AnalyzerLemmas.VarDeclShape | src/main.cpp:910-928 | A `var` declaration finishes exactly when its initializer does. A block initializer is still parsed, so it decides termination, but its scope is dropped: the result is the annotation's node unchanged, and the cursor ends where the initializer ends. |
| AnalyzerLemmas.FnUntypedNext | src/main.cpp:1021-1039 | Without a `:` after the parameter list, a function declaration finishes exactly when the body looked for past the next `}` does, and the cursor ends where that body ends. |
| AnalyzerLemmas.FnReturnType | src/main.cpp:1006-1045 | A function node carries its name and no children. Its return type is the registered type after `:`, and `Void` when there is no `:`. An unknown name is undefined behaviour. |
| AnalyzerLemmas.LoopKeywordHangs | src/main.cpp:755-780 | `return`, `for`, `while` or `if` under the cursor in the idle state stalls the analyzer. |
| AnalyzerLemmas.AnalyzeFromCount | src/main.cpp:697-739 | The forest has at most one entry per identifier token. |
| AnalyzerLemmas.NoIdentifiersNoNodes | src/main.cpp:755-780 | A token list without identifiers analyzes to the empty forest. |
| Pipeline.TokenizerOutputHasNoAssignPunct | src/main.cpp:613-625 | The tokenizer's output holds no `=` punctuator at any position. |
| Pipeline.AssignmentUnreachable | src/main.cpp:801-808 | On tokenizer output, `check_for_expression` never builds an assignment, and no forest `analyze` builds holds one at any depth. The assignment branch is dead code. |

## Left out

- `main`, `print_tree`, every `std::cout`/`fprintf` diagnostic and the `DEBUG_ITERATOR` traces: these are output only.
- The `Parser` and `Runtime` stubs, `Expression::exec` and `check_for_fn_call`: they are empty or never called.
- Primitive value payloads (including the `float`/`double` ones) and the `m_value`/`m_parameters` fields: primitive kinds are tags only.
- The raw `parent`, `lhs` and `rhs` pointers: they are never set meaningfully, and expressions are always built with null operands.
- Ownership, `unique_ptr` moves and memory: nodes are values.
- Reads past the end of the token list: the source's scans do not test for the end, so such a read is undefined behaviour there. For example, an expression not closed by `;` makes `get_span` walk past `cend()`, and a trailing `var` dereferences `end()`. The termination and no-fault guarantees of `Analyze`, `AnalyzeFrom` and the handlers hold only because the model reads a sentinel there. Here it reads a blank sentinel (`WHITE_SPACE`, empty text) that matches no delimiter. Scans stop at the end, and the `analyze` loop stops once the cursor is at or past the end, where the source would compare iterators that may have overshot.
- The state field `m_state` is shared with nested `analyze` calls. Every handler resets it before returning, so it is modelled as a local dispatch (`Statement`).
- `Statement`'s dispatch does not model the end of the token list inside a handler. A declaration keyword as the last token is handled with the sentinel in place of the missing tokens.
- Bytes outside ASCII are modelled as `char` values that reach the `default:` branch, as in the source. Signed-`char` effects are not modelled.
- The model follows the code, including these easily misread behaviours:
  - `$` and `.` retag the whole open token rather than starting a new one.
  - A `"` inside a comment is dropped.
  - A `/` on a pending "/" makes a comment even inside a string.
  - A digit extends any open token (":5" stays a punctuator).
  - An expression node's preferred type is `EXPRESSION`, not its own type.
  - The parameter loop does not test the first token of a level, or the token right after a nested group, for `(`. A `(` there is not treated as a nested group, so `def f((a)): I32 { } g { }` loses its return type and swallows the block of `g`.
- Analyzer.CheckConstDecl: unlike `CheckVariableDecl` it does not promise to finish on every loop-keyword-free input, only never to hang. A `const` with a failed type annotation and a block initializer is undefined behaviour in the source.
- Analyzer.CheckFnDecl: promises only never to hang on loop-keyword-free input. An unknown return type name is undefined behaviour in the source.
- TokenizerLemmas.StringLiteralRoundTrip: excludes string text starting with `//`, because the source turns such a string into a comment (see TokenizerLemmas.QuotedSlashesOpenComment).
- AnalyzerLemmas.ParamLoopBalanced: stated only for token lists where no `(` starts a level or directly follows a `(` or `)`. On other inputs the loop can miss a `(` and stop on an inner `)`; AnalyzerLemmas.NestedFirstParamDropsReturnType shows one such input.
- AnalyzerLemmas.ParamListCloses: stated under the same condition, for the same reason.

=== FILE: analyzer.dfy ===
/** The recursive-descent `SyntaxAnalyzer` of src/main.cpp.

    The token iterator becomes an index into the token sequence. The source
    never tests for the end of the sequence inside its scans; here a read at
    or past the end yields the `Blank` sentinel (a `WHITE_SPACE` token, which
    the tokenizer never emits, so it matches no delimiter) and every scan
    stops at the end.

    The state field `m_state` is shared with the nested `analyze` calls, but
    every handler sets it back to `NO_OP` before returning, so one trip
    through the loop is: dispatch on the current token (`NO_OP`), then run
    the chosen handler. That trip is `Statement`.

    Two paths of the source have no defined behaviour and end in `Fault`:
    an unknown function return type (`type_map.find(...)->second` on
    `end()`) and a `const` block initializer after a failed type annotation
    (`_var->children()` on a null node). A loop keyword reached in the idle
    state leaves both the state and the cursor unchanged, so the source
    loops forever: that is `Hangs`. */
module Analyzer {
  import opened Options
  import opened Tokens
  import opened Tokenizer
  import opened Nodes

  /** How a run of the analyzer ends. */
  datatype Outcome<+T> = Done(value: T) | Hangs | Fault

  /** A handler's result: the node it returns (null on failure) and where it
      leaves the cursor. */
  datatype Decl = Decl(node: Option<Node>, next: nat)

  /** One trip through the `analyze` loop: what it pushed and where it left
      the cursor. */
  datatype Advance = Advance(pushed: seq<Option<Node>>, next: nat)

  /** The token under the cursor, or the sentinel past the end. */
  function At(ts: seq<Token>, i: nat): Token {
    if i < |ts| then ts[i] else Blank
  }

  predicate IsArith(t: Token, s: string) {
    t.kind == ArithmeticOperator && t.text == s
  }

  /** The identifiers that are reserved but have no handler. */
  predicate IsLoopKeyword(t: Token) {
    t.kind == Identifier && CStr(t.text) in Keywords && t.text !in {"const", "var", "def"}
  }

  /** Identifiers whose handlers have an undefined path. */
  predicate IsFaultingKeyword(t: Token) {
    t.kind == Identifier && (t.text == "const" || t.text == "def")
  }

  /** No token would stall the analyzer. */
  predicate NoLoopKeyword(ts: seq<Token>) {
    forall k | 0 <= k < |ts| :: !IsLoopKeyword(ts[k])
  }

  /** Only `var` declarations, expressions and recoverable junk. */
  predicate Tame(ts: seq<Token>) {
    forall k | 0 <= k < |ts| :: !IsLoopKeyword(ts[k]) && !IsFaultingKeyword(ts[k])
  }

  /** The shape invariant of every node the analyzer builds: its preferred
      type is what construction leaves, and its payload is its class's. */
  predicate WellFormed(n: Node) {
    && n.preferred == Preferred(n.kind)
    && (n.kind == Function ==> n.payload.FunctionData?)
    && (n.kind in {Scope, Object, Array, Class, Struct, Json, Route} ==> n.payload == ScopeData(false))
    && (IsExpressionKind(n.kind) ==> n.payload.ExpressionData?)
    && (forall c | c in n.children :: c.Some? ==> WellFormed(c.value))
  }

  predicate AllWellFormed(ns: seq<Option<Node>>) {
    forall x | x in ns :: x.Some? ==> WellFormed(x.value)
  }

  /** No `=` punctuator anywhere in `ts`. */
  predicate NoAssignPunct(ts: seq<Token>) {
    forall k | 0 <= k < |ts| :: !IsPunct(ts[k], "=")
  }

  /** No assignment expression anywhere in the tree of `n`. */
  predicate AssignFree(n: Node) {
    && n.kind != AssignmentExpression
    && (forall c | c in n.children :: c.Some? ==> AssignFree(c.value))
  }

  predicate AllAssignFree(ns: seq<Option<Node>>) {
    forall x | x in ns :: x.Some? ==> AssignFree(x.value)
  }

  /** `move_to_next_end`: skip to the next `delim` punctuator and past it. */
  function MoveToNextEnd(ts: seq<Token>, i: nat, delim: string): (j: nat)
    ensures j > i
    ensures j - 1 < |ts| ==> IsPunct(ts[j - 1], delim)
    ensures forall k | i <= k < j - 1 && k < |ts| :: !IsPunct(ts[k], delim)
  {
    Find(ts, i, delim, Punctuator) + 1
  }

  /** How a token moves the brace depth of `get_compound_stmnt_nodes`. */
  function Delta(t: Token): int {
    if IsPunct(t, "{") then 1 else if IsPunct(t, "}") then -1 else 0
  }

  /** Opening minus closing braces in `s`. */
  function Balance(s: seq<Token>): int {
    if |s| == 0 then 0 else Delta(s[0]) + Balance(s[1..])
  }

  /** The scan of `get_compound_stmnt_nodes` from `i` at brace depth `depth`:
      the position of the `}` that brings the depth to 0, or the end. */
  function BlockEnd(ts: seq<Token>, i: nat, depth: nat): (j: nat)
    requires depth >= 1 && i <= |ts|
    ensures i <= j <= |ts|
    ensures j < |ts| ==> IsPunct(ts[j], "}")
    decreases |ts| - i
  {
    if i == |ts| then i
    else if IsPunct(ts[i], "}") && depth == 1 then i
    else BlockEnd(ts, i + 1, depth + Delta(ts[i]))
  }

  /** `get_compound_stmnt_nodes`, entered just after a `{`: the tokens of the
      block and the cursor left on its closing `}`. */
  function CompoundBody(ts: seq<Token>, i: nat): (r: (seq<Token>, nat))
    ensures i <= r.1
    ensures i <= |ts| ==> r.1 <= |ts| && r.0 == ts[i..r.1]
    ensures |ts| < i ==> r == ([], i)
  {
    if i <= |ts| then
      var j := BlockEnd(ts, i, 1);
      (ts[i..j], j)
    else ([], i)
  }

  /** The loop of `check_for_parameter_list`: stops on a `)`, stepping over
      nested parenthesised groups. The token at `i` itself is never tested
      for `(`, because the loop advances before it looks. */
  function ParamLoop(ts: seq<Token>, i: nat): (j: nat)
    ensures i <= j
    ensures j < |ts| ==> IsPunct(ts[j], ")")
    decreases Remaining(ts, i), 0
  {
    if i >= |ts| || IsPunct(ts[i], ")") then i
    else if IsPunct(At(ts, i + 1), "(") then ParamLoop(ts, ParamList(ts, i + 2))
    else ParamLoop(ts, i + 1)
  }

  /** `check_for_parameter_list`: the loop, then a step past the `)`. */
  function ParamList(ts: seq<Token>, i: nat): (j: nat)
    ensures i < j
    ensures j - 1 < |ts| ==> IsPunct(ts[j - 1], ")")
    decreases Remaining(ts, i), 1
  {
    ParamLoop(ts, i) + 1
  }

  function Remaining(ts: seq<Token>, i: nat): nat {
    if i < |ts| then |ts| - i else 0
  }

  /** How a token moves the parenthesis depth. */
  function ParenDelta(t: Token): int {
    if IsPunct(t, "(") then 1 else if IsPunct(t, ")") then -1 else 0
  }

  /** Opening minus closing parentheses among `ts[i..k]`. */
  function ParenDepth(ts: seq<Token>, i: nat, k: nat): int
    requires i <= k <= |ts|
    decreases k - i
  {
    if i == k then 0 else ParenDelta(ts[i]) + ParenDepth(ts, i + 1, k)
  }

  /** Every `(` from `i` on sits where the parameter loop looks for one:
      none at `i` itself (the first token of a level) and none directly
      after a `(` or a `)` (where a level starts or a nested group has just
      returned). */
  predicate OpensVisible(ts: seq<Token>, i: nat) {
    && (i < |ts| ==> !IsPunct(ts[i], "("))
    && forall m | i < m < |ts| :: IsPunct(ts[m], "(") ==> !IsPunct(ts[m - 1], "(") && !IsPunct(ts[m - 1], ")")
  }

  /** A token that ends the scan of `check_for_expression`. */
  predicate IsShapeToken(t: Token) {
    IsPunct(t, "(") || IsPunct(t, "=")
  }

  /** Some `(` comes before every `=`. */
  predicate CallFirst(span: seq<Token>) {
    exists k | 0 <= k < |span| :: IsPunct(span[k], "(") && NoAssignBefore(span, k)
  }

  /** No `=` punctuator among the first `k` tokens of `span`. */
  predicate NoAssignBefore(span: seq<Token>, k: nat)
    requires k <= |span|
  {
    forall m | 0 <= m < k :: !IsPunct(span[m], "=")
  }

  /** The call node `check_for_expression` builds (operands null). */
  const CallNode: Node := Construct(CallExpression, Call)

  /** The assignment node `check_for_expression` builds (operands null). */
  const AssignNode: Node := Construct(AssignmentExpression, Asgn)

  /** The shape classifier of `check_for_expression`: the first `(` or `=`
      punctuator decides between a call and an assignment. */
  function Classify(span: seq<Token>): (r: Option<Node>)
    ensures r == None || r == Some(CallNode) || r == Some(AssignNode)
  {
    if |span| == 0 then None
    else if IsPunct(span[0], "(") then Some(CallNode)
    else if IsPunct(span[0], "=") then Some(AssignNode)
    else Classify(span[1..])
  }

  /** The classifier against its reference: it answers at all exactly when
      the span holds a `(` or `=` punctuator, it answers "call" exactly when
      a `(` comes before every `=`, and it answers "assignment" only when the
      span holds an `=` punctuator. */
  lemma ClassifyShapes(span: seq<Token>)
    ensures Classify(span).Some? <==> exists k | 0 <= k < |span| :: IsShapeToken(span[k])
    ensures Classify(span) == Some(CallNode) <==> CallFirst(span)
    ensures Classify(span) == Some(AssignNode) ==> exists k | 0 <= k < |span| :: IsPunct(span[k], "=")
  {
    ClassifyFinds(span);
    ClassifyCalls(span);
    ClassifyAssigns(span);
  }

  lemma {:induction false} ClassifyFinds(span: seq<Token>)
    ensures Classify(span).Some? <==> exists k | 0 <= k < |span| :: IsShapeToken(span[k])
  {
    if |span| > 0 && !IsShapeToken(span[0]) {
      var tail := span[1..];
      ClassifyFinds(tail);
      if exists k | 0 <= k < |span| :: IsShapeToken(span[k]) {
        var k :| 0 <= k < |span| && IsShapeToken(span[k]);
        assert IsShapeToken(tail[k - 1]);
      }
      if exists k | 0 <= k < |tail| :: IsShapeToken(tail[k]) {
        var k :| 0 <= k < |tail| && IsShapeToken(tail[k]);
        assert IsShapeToken(span[k + 1]);
      }
    }
  }

  lemma {:induction false} ClassifyCalls(span: seq<Token>)
    ensures Classify(span) == Some(CallNode) <==> CallFirst(span)
  {
    if |span| == 0 {
    } else if IsPunct(span[0], "(") {
      assert NoAssignBefore(span, 0);
    } else if IsPunct(span[0], "=") {
      assert CallNode != AssignNode by {
        assert CallNode.kind != AssignNode.kind;
      }
      assert !CallFirst(span) by {
        forall k | 0 <= k < |span| && IsPunct(span[k], "(")
          ensures exists m | 0 <= m < k :: IsPunct(span[m], "=")
        {
          assert 0 < k && IsPunct(span[0], "=");
        }
      }
    } else {
      var tail := span[1..];
      ClassifyCalls(tail);
      if CallFirst(span) {
        var k :| 0 <= k < |span| && IsPunct(span[k], "(") && NoAssignBefore(span, k);
        assert IsPunct(tail[k - 1], "(") && NoAssignBefore(tail, k - 1);
      }
      if CallFirst(tail) {
        var k :| 0 <= k < |tail| && IsPunct(tail[k], "(") && NoAssignBefore(tail, k);
        assert IsPunct(span[k + 1], "(");
        assert NoAssignBefore(span, k + 1) by {
          forall m | 0 <= m < k + 1 ensures !IsPunct(span[m], "=") {
            if m > 0 { assert span[m] == tail[m - 1]; }
          }
        }
      }
    }
  }

  lemma {:induction false} ClassifyAssigns(span: seq<Token>)
    ensures Classify(span) == Some(AssignNode) ==> exists k | 0 <= k < |span| :: IsPunct(span[k], "=")
  {
    if |span| > 0 && !IsPunct(span[0], "(") && !IsPunct(span[0], "=") {
      var tail := span[1..];
      ClassifyAssigns(tail);
      if Classify(span) == Some(AssignNode) {
        var k :| 0 <= k < |tail| && IsPunct(tail[k], "=");
        assert IsPunct(span[k + 1], "=");
      }
    }
  }

  /** `check_for_expression`: classify the span up to the next `;`; the
      cursor is left on the `;`. */
  function CheckExpression(ts: seq<Token>, i: nat): (d: Decl)
    ensures d.next >= i
    ensures d.node.Some? ==> WellFormed(d.node.value)
    ensures NoAssignPunct(ts) && d.node.Some? ==> AssignFree(d.node.value)
  {
    var (span, j) := GetSpan(ts, i, ";", Punctuator);
    ClassifyShapes(span);
    assert NoAssignPunct(ts) ==> NoAssignPunct(span) by {
      if i <= |ts| {
        assert forall k | 0 <= k < |span| :: span[k] == ts[i + k];
      }
    }
    Decl(Classify(span), j)
  }

  /** The optional `: type-name` of a declaration whose name is `name`, with
      the cursor on the token after the name. */
  function TypeAnnotation(ts: seq<Token>, i: nat, name: string): (d: Decl)
    ensures d.next >= i
    ensures d.node.Some? ==> WellFormed(d.node.value) && d.node.value.children == []
    ensures d.node.Some? ==> d.node.value.kind in TypeMap.Values && d.node.value.id == CStr(name)
    ensures d.node.Some? ==> !IsExpressionKind(d.node.value.kind) && AssignFree(d.node.value)
  {
    var id := CStr(name);
    if IsPunct(At(ts, i), ":") then
      var t := At(ts, i + 1);
      var typeName := CStr(t.text);
      if typeName in TypeMap && t.kind == Identifier then
        Decl(Some(Declared(typeName, id)), i + 2)
      else if t.kind == Identifier then
        Decl(Some(Declared("Variant", id)), i + 2)
      else
        Decl(None, i + 1)
    else
      Decl(Some(Declared("Variant", id)), i)
  }

  /** `get_type_instance(typeName)` followed by `setId(id)`. */
  function Declared(typeName: string, id: string): (n: Node)
    requires typeName in TypeMap
    ensures n.kind == TypeMap[typeName] && n.kind in TypeMap.Values
    ensures n.id == id && n.children == [] && n.preferred == n.kind
    ensures WellFormed(n) && !IsExpressionKind(n.kind) && AssignFree(n)
  {
    InstanceNamed(typeName).(id := id)
  }

  /** The top-level procedure `analyze`. */
  function Analyze(ts: seq<Token>): (r: Outcome<seq<Option<Node>>>)
    ensures NoLoopKeyword(ts) ==> !r.Hangs?
    ensures Tame(ts) ==> r.Done?
    ensures r.Done? ==> AllWellFormed(r.value)
    ensures NoAssignPunct(ts) && r.Done? ==> AllAssignFree(r.value)
    decreases |ts|, 5
  {
    AnalyzeFrom(ts, 0)
  }

  /** The `analyze` loop from cursor `i` to the end. */
  function AnalyzeFrom(ts: seq<Token>, i: nat): (r: Outcome<seq<Option<Node>>>)
    ensures NoLoopKeyword(ts) ==> !r.Hangs?
    ensures Tame(ts) ==> r.Done?
    ensures r.Done? ==> AllWellFormed(r.value)
    ensures NoAssignPunct(ts) && r.Done? ==> AllAssignFree(r.value)
    decreases |ts|, 4, |ts| - i
  {
    if i >= |ts| then Done([])
    else
      match Statement(ts, i)
      case Done(a) =>
        (match AnalyzeFrom(ts, a.next)
         case Done(rest) => Done(a.pushed + rest)
         case Hangs => Hangs
         case Fault => Fault)
      case Hangs => Hangs
      case Fault => Fault
  }

  /** `check_for_next_possible` in the idle state, followed by the handler it
      selects. */
  function Statement(ts: seq<Token>, i: nat): (r: Outcome<Advance>)
    requires i < |ts|
    ensures r.Done? ==> r.value.next > i && |r.value.pushed| <= 1
    ensures NoLoopKeyword(ts) ==> !r.Hangs?
    ensures Tame(ts) ==> r.Done?
    ensures r.Done? ==> AllWellFormed(r.value.pushed)
    ensures r.Done? ==> (|r.value.pushed| == 1 <==> ts[i].kind == Identifier)
    ensures NoAssignPunct(ts) && r.Done? ==> AllAssignFree(r.value.pushed)
    decreases |ts|, 3
  {
    var t := ts[i];
    if t.kind == Comment then Done(Advance([], i + 1))
    else if t.kind == Identifier then
      if CStr(t.text) !in Keywords then
        var d := CheckExpression(ts, i);
        Done(Advance([d.node], d.next + 1))
      else if t.text == "const" then Push(CheckConstDecl(ts, i + 1))
      else if t.text == "var" then Push(CheckVariableDecl(ts, i + 1))
      else if t.text == "def" then Push(CheckFnDecl(ts, i + 1))
      else Hangs
    else Done(Advance([], MoveToNextEnd(ts, i, ";")))
  }

  /** A handler's node pushed onto the forest. */
  function Push(o: Outcome<Decl>): (r: Outcome<Advance>)
    ensures r.Done? <==> o.Done?
    ensures r.Hangs? <==> o.Hangs?
    ensures r.Done? ==> r.value == Advance([o.value.node], o.value.next)
  {
    match o
    case Done(d) => Done(Advance([d.node], d.next))
    case Hangs => Hangs
    case Fault => Fault
  }

  /** The optional `= initializer` of a declaration, with the cursor on the
      token after the type annotation: a `{` block is parsed as a compound
      statement (its scope is the result's node), anything else is skipped
      up to and past the next `;`. */
  function Initializer(ts: seq<Token>, i: nat): (r: Outcome<Decl>)
    ensures r.Done? ==> r.value.next >= i
    ensures r.Done? ==> (r.value.node.Some? <==> IsArith(At(ts, i), "=") && IsPunct(At(ts, i + 1), "{"))
    ensures r.Done? && r.value.node.Some? ==> WellFormed(r.value.node.value) && r.value.node.value.kind == Scope
    ensures NoLoopKeyword(ts) ==> !r.Hangs?
    ensures Tame(ts) ==> r.Done?
    ensures NoAssignPunct(ts) && r.Done? && r.value.node.Some? ==> AssignFree(r.value.node.value)
    // without `=` the cursor stays put; an initializer that is not a block
    // leaves it just past the next `;`
    ensures !IsArith(At(ts, i), "=") ==> r == Done(Decl(None, i))
    ensures IsArith(At(ts, i), "=") && !IsPunct(At(ts, i + 1), "{") ==>
      r == Done(Decl(None, MoveToNextEnd(ts, i + 1, ";")))
    decreases |ts|, 1
  {
    if IsArith(At(ts, i), "=") then
      if IsPunct(At(ts, i + 1), "{") then CheckCompound(ts, i + 2)
      else Done(Decl(None, MoveToNextEnd(ts, i + 1, ";")))
    else Done(Decl(None, i))
  }

  /** `check_for_variable_decl`, with the cursor on the declared name. A
      block initializer is parsed and then dropped. */
  function CheckVariableDecl(ts: seq<Token>, i: nat): (r: Outcome<Decl>)
    ensures r.Done? ==> r.value.next > i
    ensures r.Done? && r.value.node.Some? ==> WellFormed(r.value.node.value)
    ensures NoLoopKeyword(ts) ==> !r.Hangs?
    ensures Tame(ts) ==> r.Done?
    ensures NoAssignPunct(ts) && r.Done? && r.value.node.Some? ==> AssignFree(r.value.node.value)
    decreases |ts|, 2
  {
    var a := TypeAnnotation(ts, i + 1, At(ts, i).text);
    match Initializer(ts, a.next)
    case Done(init) => Done(Decl(a.node, init.next))
    case Hangs => Hangs
    case Fault => Fault
  }

  /** The position of the declared name in `check_for_const_decl`: a
      leading `@` is skipped. */
  function ConstNameAt(ts: seq<Token>, i: nat): (p: nat)
    ensures p == i || p == i + 1
    ensures p == i + 1 <==> IsPunct(At(ts, i), "@")
  {
    if IsPunct(At(ts, i), "@") then i + 1 else i
  }

  /** `check_for_const_decl`, with the cursor on the declared name or on a
      leading `@`. A block initializer's scope becomes the node's child. */
  function CheckConstDecl(ts: seq<Token>, i: nat): (r: Outcome<Decl>)
    ensures r.Done? ==> r.value.next > i
    ensures r.Done? && r.value.node.Some? ==> WellFormed(r.value.node.value)
    ensures NoLoopKeyword(ts) ==> !r.Hangs?
    ensures NoAssignPunct(ts) && r.Done? && r.value.node.Some? ==> AssignFree(r.value.node.value)
    decreases |ts|, 2
  {
    var p := ConstNameAt(ts, i);
    var a := TypeAnnotation(ts, p + 1, At(ts, p).text);
    if a.node.None? && IsArith(At(ts, a.next), "=") && IsPunct(At(ts, a.next + 1), "{") then
      Fault
    else
      match Initializer(ts, a.next)
      case Done(init) => Done(WithInitializer(a.node, init))
      case Hangs => Hangs
      case Fault => Fault
  }

  /** How `check_for_const_decl` ends: the annotation's node, with the
      initializer's scope, when there is one, appended to its children; the
      cursor is where the initializer leaves it. */
  function WithInitializer(annotation: Option<Node>, init: Decl): (d: Decl)
    requires init.node.Some? ==> annotation.Some?
    ensures d.next == init.next
    ensures d.node.None? <==> annotation.None?
    ensures d.node.Some? ==>
      && d.node.value.kind == annotation.value.kind
      && d.node.value.id == annotation.value.id
      && d.node.value.preferred == annotation.value.preferred
      && d.node.value.children == annotation.value.children + (if init.node.Some? then [init.node] else [])
  {
    if init.node.Some? then
      var n := annotation.value;
      Decl(Some(n.(children := n.children + [init.node])), init.next)
    else Decl(annotation, init.next)
  }

  /** Where `check_for_fn_decl` leaves the cursor after the parameter list
      of the function named at `i`: past its `)`, or, with no `(`, past the
      next `}`. */
  function AfterParams(ts: seq<Token>, i: nat): (j: nat)
    ensures j > i + 1
  {
    if IsPunct(At(ts, i + 1), "(") then ParamList(ts, i + 2) else MoveToNextEnd(ts, i + 1, "}")
  }

  /** `check_for_fn_decl`, with the cursor on the function name. The
      parameter list is skipped, the body is parsed and then dropped. */
  function CheckFnDecl(ts: seq<Token>, i: nat): (r: Outcome<Decl>)
    ensures r.Done? ==> r.value.next > i
    ensures r.Done? && r.value.node.Some? ==> WellFormed(r.value.node.value)
    ensures NoLoopKeyword(ts) ==> !r.Hangs?
    ensures NoAssignPunct(ts) && r.Done? && r.value.node.Some? ==> AssignFree(r.value.node.value)
    decreases |ts|, 2
  {
    var header := FnHeader(ts, i);
    if header.Fault? then Fault
    else
      match FnBody(ts, header.value.next)
      case Done(next) => Done(Decl(header.value.node, next))
      case Hangs => Hangs
      case Fault => Fault
  }

  /** The part of `check_for_fn_decl` before the body: the function node,
      named after the token at `i` and carrying its return type, and where
      the body's `{` is looked for. The return type is the registered type
      after a `:` that follows the parameter list; without that `:` it stays
      `Void` and the cursor first skips past the next `}`. */
  function FnHeader(ts: seq<Token>, i: nat): (r: Outcome<Decl>)
    ensures !r.Hangs?
    ensures r.Done? ==> r.value.next > i + 2 && r.value.node.Some? && WellFormed(r.value.node.value)
    ensures r.Done? ==> var fn := r.value.node.value;
      fn.kind == Function && fn.id == CStr(At(ts, i).text) && fn.children == []
  {
    var afterParams := AfterParams(ts, i);
    var typed := IsPunct(At(ts, afterParams), ":");
    if typed && CStr(At(ts, afterParams + 1).text) !in TypeMap then
      Fault
    else
      var returnType := if typed then TypeMap[CStr(At(ts, afterParams + 1).text)] else Void;
      var afterType := if typed then afterParams + 1 else MoveToNextEnd(ts, afterParams, "}");
      var fn := Construct(Function, Add).(id := CStr(At(ts, i).text), payload := FunctionData(false, returnType));
      Done(Decl(Some(fn), afterType + 1))
  }

  /** The body of a function declaration, with the cursor where its `{`
      should be: a block is parsed and dropped, anything else is skipped up
      to and past the next `}`. The result is where the cursor ends. */
  function FnBody(ts: seq<Token>, i: nat): (r: Outcome<nat>)
    ensures r.Done? ==> r.value > i
    ensures NoLoopKeyword(ts) ==> !r.Hangs?
    decreases |ts|, 1
  {
    if IsPunct(At(ts, i), "{") then
      match CheckCompound(ts, i + 1)
      case Done(body) => Done(body.next)
      case Hangs => Hangs
      case Fault => Fault
    else Done(MoveToNextEnd(ts, i, "}"))
  }

  /** `check_for_compound_stmnt`, entered just after a `{`: analyze the block
      and make its statements the children of a new scope, in order; the
      cursor ends past the closing `}`. */
  function CheckCompound(ts: seq<Token>, i: nat): (r: Outcome<Decl>)
    requires 1 <= i
    ensures r.Done? ==> r.value.next > i
    ensures r.Done? ==> r.value.node.Some? && WellFormed(r.value.node.value) && r.value.node.value.kind == Scope
    ensures NoLoopKeyword(ts) ==> !r.Hangs?
    ensures Tame(ts) ==> r.Done?
    ensures NoAssignPunct(ts) && r.Done? ==> AssignFree(r.value.node.value)
    decreases |ts|, 0
  {
    var (body, j) := CompoundBody(ts, i);
    assert NoLoopKeyword(ts) ==> NoLoopKeyword(body);
    assert Tame(ts) ==> Tame(body);
    assert NoAssignPunct(ts) ==> NoAssignPunct(body);
    match if body == [] then Done([]) else Analyze(body)
    case Done(children) => Done(Decl(Some(Construct(Scope, Add).(children := children)), j + 1))
    case Hangs => Hangs
    case Fault => Fault
  }
}

=== FILE: analyzer_lemmas.dfy ===
/** Properties of the syntax analyzer: the brace scanner finds the matching
    `}`, a compound statement's scope holds exactly what `analyze` returns
    for its block, the declaration grammars type their nodes from the
    registry, and the idle dispatch stalls on a loop keyword. */
module AnalyzerLemmas {
  import opened Tokens
  import opened Options
  import opened Tokenizer
  import opened Nodes
  import opened Analyzer

  lemma BalanceCons(ts: seq<Token>, i: nat, k: nat)
    requires i < k <= |ts|
    ensures Balance(ts[i..k]) == Delta(ts[i]) + Balance(ts[i + 1..k])
  {
    assert ts[i..k][1..] == ts[i + 1..k];
  }

  /** The brace scan never lets the depth reach 0 before it stops, and when
      it stops on a `}` that brace closes the block. */
  lemma {:induction false} BlockEndBalanced(ts: seq<Token>, i: nat, depth: nat)
    requires depth >= 1 && i <= |ts|
    ensures forall k | i <= k <= BlockEnd(ts, i, depth) :: depth + Balance(ts[i..k]) >= 1
    ensures BlockEnd(ts, i, depth) < |ts| ==> depth + Balance(ts[i..BlockEnd(ts, i, depth) + 1]) == 0
    decreases |ts| - i
  {
    var j := BlockEnd(ts, i, depth);
    if i == |ts| {
      assert ts[i..i] == [];
    } else if IsPunct(ts[i], "}") && depth == 1 {
      assert ts[i..i] == [];
      BalanceCons(ts, i, i + 1);
      assert ts[i + 1..i + 1] == [];
    } else {
      var d := depth + Delta(ts[i]);
      BlockEndBalanced(ts, i + 1, d);
      assert j == BlockEnd(ts, i + 1, d);
      forall k | i <= k <= j
        ensures depth + Balance(ts[i..k]) >= 1
      {
        if k == i {
          assert ts[i..k] == [];
        } else {
          BalanceCons(ts, i, k);
        }
      }
      if j < |ts| {
        BalanceCons(ts, i, j + 1);
      }
    }
  }

  /** `get_compound_stmnt_nodes`: every prefix of the block has no more `}`
      than `{`, the cursor stops on a `}`, and the block with that brace
      closed is balanced. */
  lemma CompoundBodyBalanced(ts: seq<Token>, i: nat)
    requires i <= |ts|
    ensures var (body, j) := CompoundBody(ts, i);
      && (forall k | 0 <= k <= |body| :: Balance(body[..k]) >= 0)
      && (j < |ts| ==> IsPunct(ts[j], "}") && Balance(body) == 0)
  {
    var (body, j) := CompoundBody(ts, i);
    BlockEndBalanced(ts, i, 1);
    forall k | 0 <= k <= |body|
      ensures Balance(body[..k]) >= 0
    {
      assert body[..k] == ts[i..i + k];
    }
    if j < |ts| {
      assert body == ts[i..j];
      BalanceCons(ts, i, j + 1);
      assert ts[i..j + 1] == body + [ts[j]];
      BalanceSnoc(body, ts[j]);
    }
  }

  lemma {:induction false} BalanceSnoc(s: seq<Token>, t: Token)
    ensures Balance(s + [t]) == Balance(s) + Delta(t)
  {
    if |s| == 0 {
      assert s + [t] == [t];
    } else {
      assert (s + [t])[1..] == s[1..] + [t];
      BalanceSnoc(s[1..], t);
    }
  }

  lemma {:induction false} ParenSplit(ts: seq<Token>, a: nat, b: nat, c: nat)
    requires a <= b <= c <= |ts|
    ensures ParenDepth(ts, a, c) == ParenDepth(ts, a, b) + ParenDepth(ts, b, c)
    decreases b - a
  {
    if a < b {
      ParenSplit(ts, a + 1, b, c);
    }
  }

  /** What `ParamLoopBalanced` states about the stop `j` of a scan from `i`. */
  predicate ClosesLevel(ts: seq<Token>, i: nat, j: nat) {
    && (forall k | i <= k <= j && k <= |ts| :: ParenDepth(ts, i, k) >= 0)
    && (j < |ts| ==> i <= j && ParenDepth(ts, i, j + 1) == -1)
  }

  /** The loop of `check_for_parameter_list` against parenthesis depth: when
      every `(` is one the loop looks at, the depth counted from `i` never
      drops below 0 up to the stop, and the `)` it stops on is the first
      one that takes it below 0, the `)` closing the enclosing group. */
  lemma {:induction false} ParamLoopBalanced(ts: seq<Token>, i: nat)
    requires OpensVisible(ts, i)
    ensures ClosesLevel(ts, i, ParamLoop(ts, i))
    decreases Remaining(ts, i), 1
  {
    if i >= |ts| || IsPunct(ts[i], ")") {
      assert ParamLoop(ts, i) == i;
    } else if IsPunct(At(ts, i + 1), "(") {
      ParamLoopNested(ts, i);
    } else {
      ParamLoopPlain(ts, i);
    }
  }

  /** A level whose next token opens a group: the group is scanned by the
      recursive call, then the level goes on after its `)`. */
  lemma {:induction false} ParamLoopNested(ts: seq<Token>, i: nat)
    requires OpensVisible(ts, i)
    requires i < |ts| && !IsPunct(ts[i], ")") && IsPunct(At(ts, i + 1), "(")
    ensures ClosesLevel(ts, i, ParamLoop(ts, i))
    decreases Remaining(ts, i), 0
  {
    var q := ParamLoop(ts, i + 2);
    VisibleInGroup(ts, i);
    ParamLoopBalanced(ts, i + 2);
    VisibleAfterGroup(ts, i, q + 1);
    ParamLoopBalanced(ts, q + 1);
    NestedCompose(ts, i, q, ParamLoop(ts, q + 1));
  }

  /** The two scans of a nested step make one scan of the level. */
  lemma NestedCompose(ts: seq<Token>, i: nat, q: nat, j: nat)
    requires i < |ts| && !IsPunct(ts[i], "(") && !IsPunct(ts[i], ")") && IsPunct(At(ts, i + 1), "(")
    requires q == ParamLoop(ts, i + 2) && j == ParamLoop(ts, q + 1)
    requires ClosesLevel(ts, i + 2, q) && ClosesLevel(ts, q + 1, j)
    ensures ClosesLevel(ts, i, ParamLoop(ts, i))
  {
    NestedStep(ts, i);
    NestedDeltas(ts, i);
    GroupThenLevel(ts, i, q, j);
  }

  lemma NestedDeltas(ts: seq<Token>, i: nat)
    requires i < |ts| && !IsPunct(ts[i], "(") && !IsPunct(ts[i], ")") && IsPunct(At(ts, i + 1), "(")
    ensures i + 2 <= |ts| && ParenDelta(ts[i]) == 0 && ParenDelta(ts[i + 1]) == 1
  {
  }

  /** After a nested group the level goes on one past the group's `)`. */
  lemma NestedStep(ts: seq<Token>, i: nat)
    requires i < |ts| && !IsPunct(ts[i], ")") && IsPunct(At(ts, i + 1), "(")
    ensures ParamLoop(ts, i) == ParamLoop(ts, ParamLoop(ts, i + 2) + 1)
  {
  }

  lemma VisibleInGroup(ts: seq<Token>, i: nat)
    requires OpensVisible(ts, i) && IsPunct(At(ts, i + 1), "(")
    ensures OpensVisible(ts, i + 2)
  {
  }

  lemma VisibleAfterGroup(ts: seq<Token>, i: nat, m: nat)
    requires OpensVisible(ts, i) && i < m
    requires m - 1 < |ts| ==> IsPunct(ts[m - 1], ")")
    ensures OpensVisible(ts, m)
  {
  }

  /** A token that is not a parenthesis, a `(`, the scan of the group it
      opens up to `q`, and the scan of the level after it up to `j` make
      one scan of the level from `i` up to `j`. */
  lemma GroupThenLevel(ts: seq<Token>, i: nat, q: nat, j: nat)
    requires i + 2 <= |ts| && ParenDelta(ts[i]) == 0 && ParenDelta(ts[i + 1]) == 1
    requires i + 2 <= q && ClosesLevel(ts, i + 2, q) && ClosesLevel(ts, q + 1, j) && q + 1 <= j
    ensures ClosesLevel(ts, i, j)
  {
    var m := q + 1;
    assert ParenDepth(ts, i + 1, i + 2) == ParenDelta(ts[i + 1]) + ParenDepth(ts, i + 2, i + 2);
    assert ParenDepth(ts, i, i + 2) == 1;
    if m <= |ts| {
      ParenSplit(ts, i, i + 2, m);
    }
    forall k | i <= k <= j && k <= |ts|
      ensures ParenDepth(ts, i, k) >= 0
    {
      if k > i + 2 && k <= m {
        ParenSplit(ts, i, i + 2, k);
      } else if k > m {
        ParenSplit(ts, i, m, k);
      }
    }
    if j < |ts| {
      ParenSplit(ts, i, m, j + 1);
    }
  }

  /** A level whose next token is not `(`: one step forward. */
  lemma {:induction false} ParamLoopPlain(ts: seq<Token>, i: nat)
    requires OpensVisible(ts, i)
    requires i < |ts| && !IsPunct(ts[i], ")") && !IsPunct(At(ts, i + 1), "(")
    ensures ClosesLevel(ts, i, ParamLoop(ts, i))
    decreases Remaining(ts, i), 0
  {
    var j := ParamLoop(ts, i + 1);
    assert j == ParamLoop(ts, i);
    ParamLoopBalanced(ts, i + 1);
    assert ParenDelta(ts[i]) == 0;
    forall k | i < k <= |ts|
      ensures ParenDepth(ts, i, k) == ParenDepth(ts, i + 1, k)
    {
    }
  }

  /** `check_for_parameter_list` leaves the cursor one past the `)` that
      closes the group whose `(` came just before `i`. */
  lemma ParamListCloses(ts: seq<Token>, i: nat)
    requires OpensVisible(ts, i)
    ensures var j := ParamList(ts, i);
      && (forall k | i <= k < j && k <= |ts| :: ParenDepth(ts, i, k) >= 0)
      && (j <= |ts| ==> ParenDepth(ts, i, j) == -1)
  {
    ParamLoopBalanced(ts, i);
  }

  /** The tokens of `f((a)): I32 { } g { }`, with the cursor on `f`. */
  const NestedWitness: seq<Token> :=
    [Token(Identifier, "f"), Token(Punctuator, "("), Token(Punctuator, "("),
     Token(Identifier, "a"), Token(Punctuator, ")"), Token(Punctuator, ")"),
     Token(Punctuator, ":"), Token(Identifier, "I32"),
     Token(Punctuator, "{"), Token(Punctuator, "}"),
     Token(Identifier, "g"), Token(Punctuator, "{"), Token(Punctuator, "}")]

  /** A parameter list that starts with `(` loses the return type: in
      `f((a)): I32 { } g { }` the loop never looks at the second `(`, so it
      stops on the inner `)`. The outer `)` stands where the `:` is
      expected, so the cursor skips to the body's `}`, and the `{` looked
      for after the token that follows it opens the block of `g`, which
      the declaration swallows. The whole run stays inside the list. */
  lemma NestedFirstParamDropsReturnType()
    ensures AfterParams(NestedWitness, 0) == 5 && !IsPunct(NestedWitness[5], ":")
    ensures var fn := Construct(Function, Add).(id := "f", payload := FunctionData(false, Void));
      CheckFnDecl(NestedWitness, 0) == Done(Decl(Some(fn), |NestedWitness|))
  {
    var ts := NestedWitness;
    WitnessParams();
    assert MoveToNextEnd(ts, 5, "}") == 10 by {
      assert Find(ts, 5, "}", Punctuator) == 9;
    }
    assert CStr("f") == "f";
    FnHeaderUntyped(ts, 0);
    FnDeclNext(ts, 0);
    WitnessBody();
  }

  /** Without a `:` after the parameter list the cursor skips past the next
      `}`, and the declaration ends where the body that follows ends. */
  lemma FnUntypedNext(ts: seq<Token>, i: nat)
    requires !IsPunct(At(ts, AfterParams(ts, i)), ":")
    ensures var body := FnBody(ts, MoveToNextEnd(ts, AfterParams(ts, i), "}") + 1);
      && (CheckFnDecl(ts, i).Done? <==> body.Done?)
      && (body.Done? ==> CheckFnDecl(ts, i).value.next == body.value)
  {
    FnHeaderUntyped(ts, i);
    FnDeclNext(ts, i);
  }

  lemma FnHeaderUntyped(ts: seq<Token>, i: nat)
    requires !IsPunct(At(ts, AfterParams(ts, i)), ":")
    ensures FnHeader(ts, i) == Done(FnHeader(ts, i).value)
    ensures FnHeader(ts, i).value.next == MoveToNextEnd(ts, AfterParams(ts, i), "}") + 1
  {
  }

  /** A declaration fails where its header fails; otherwise it finishes
      when its body does, with the header's node and the body's end. */
  lemma FnDeclNext(ts: seq<Token>, i: nat)
    ensures FnHeader(ts, i).Fault? ==> CheckFnDecl(ts, i).Fault?
    ensures FnHeader(ts, i).Done? ==>
      var body := FnBody(ts, FnHeader(ts, i).value.next);
      && (CheckFnDecl(ts, i).Done? <==> body.Done?)
      && (body.Done? ==> CheckFnDecl(ts, i).value == Decl(FnHeader(ts, i).value.node, body.value))
  {
    var header := FnHeader(ts, i);
    if header.Done? {
      match FnBody(ts, header.value.next)
      case Done(next) =>
        assert CheckFnDecl(ts, i) == Done(Decl(header.value.node, next));
      case Hangs =>
      case Fault =>
    }
  }

  lemma WitnessParams()
    ensures AfterParams(NestedWitness, 0) == 5
  {
    var ts := NestedWitness;
    assert ParamLoop(ts, 4) == 4;
    assert ParamLoop(ts, 3) == 4;
    assert ParamLoop(ts, 2) == 4;
  }

  /** The `{` of `g` is parsed as the function's body. */
  lemma WitnessBody()
    ensures FnBody(NestedWitness, 11) == Done(13)
  {
    var ts := NestedWitness;
    assert BlockEnd(ts, 12, 1) == 12;
    assert CompoundBody(ts, 12).0 == [];
  }

  /** `check_for_compound_stmnt`: the scope's children are exactly the
      forest `analyze` builds from the block, in order, and the cursor ends
      one past the closing `}`. */
  lemma CompoundScope(ts: seq<Token>, i: nat)
    requires 1 <= i <= |ts|
    ensures var (body, j) := CompoundBody(ts, i);
      var r := CheckCompound(ts, i);
      && (r.Done? <==> Analyze(body).Done?)
      && (r.Hangs? <==> Analyze(body).Hangs?)
      && (r.Done? ==> r.value.node.value.kind == Scope
                      && r.value.node.value.children == Analyze(body).value
                      && r.value.next == j + 1)
  {
    var (body, j) := CompoundBody(ts, i);
    if body == [] {
      assert Analyze(body) == Done([]);
    }
  }

  /** `check_for_variable_decl`, with the cursor on the name: a registered
      type after `:` gives a node of that type named after the declaration,
      an unregistered identifier or no annotation gives a `Variant`, and
      any other token after `:` gives the null node. The node never has
      children. */
  lemma VarDeclTyping(ts: seq<Token>, i: nat)
    ensures var r := CheckVariableDecl(ts, i);
      var name := CStr(At(ts, i).text);
      var t := At(ts, i + 2);
      r.Done? ==>
        && (IsPunct(At(ts, i + 1), ":") && t.kind == Identifier && CStr(t.text) in TypeMap ==>
              r.value.node.Some? && r.value.node.value.kind == TypeMap[CStr(t.text)])
        && (IsPunct(At(ts, i + 1), ":") && t.kind == Identifier && CStr(t.text) !in TypeMap ==>
              r.value.node.Some? && r.value.node.value.kind == Variant)
        && (!IsPunct(At(ts, i + 1), ":") ==> r.value.node.Some? && r.value.node.value.kind == Variant)
        && (IsPunct(At(ts, i + 1), ":") && t.kind != Identifier ==> r.value.node.None?)
        && (r.value.node.Some? ==>
              && r.value.node.value.id == name
              && r.value.node.value.preferred == r.value.node.value.kind
              && r.value.node.value.children == [])
  {
    VarDeclShape(ts, i);
    AnnotationCases(ts, i + 1, At(ts, i).text);
  }

  /** The optional `: type-name`, with the cursor just after the name. */
  lemma AnnotationCases(ts: seq<Token>, i: nat, name: string)
    ensures var d := TypeAnnotation(ts, i, name);
      var t := At(ts, i + 1);
      && (IsPunct(At(ts, i), ":") && t.kind == Identifier && CStr(t.text) in TypeMap ==>
            d.node.Some? && d.node.value.kind == TypeMap[CStr(t.text)])
      && (IsPunct(At(ts, i), ":") && t.kind == Identifier && CStr(t.text) !in TypeMap ==>
            d.node.Some? && d.node.value.kind == Variant)
      && (!IsPunct(At(ts, i), ":") ==> d.node.Some? && d.node.value.kind == Variant)
      && (IsPunct(At(ts, i), ":") && t.kind != Identifier ==> d.node.None?)
      && (d.node.Some? ==> d.node.value.id == CStr(name) && d.node.value.preferred == d.node.value.kind)
  {
  }

  /** A reserved word after `:` is an unregistered type name, so it types
      the declaration as `Variant`. */
  lemma KeywordTypeIsVariant(ts: seq<Token>, i: nat, name: string)
    requires IsPunct(At(ts, i), ":") && At(ts, i + 1).kind == Identifier
    requires CStr(At(ts, i + 1).text) in Keywords
    ensures var d := TypeAnnotation(ts, i, name);
      d.node.Some? && d.node.value.kind == Variant
  {
    KeywordsAreNotTypes();
    AnnotationCases(ts, i, name);
  }

  /** What `check_for_const_decl` does to the annotation's node: the id is
      the token after a leading `@`, or the one under the cursor; the scope
      of an `= { ... }` initializer becomes its one and only child, and
      after a failed annotation such an initializer dereferences the null
      node. */
  lemma ConstDeclShape(ts: seq<Token>, i: nat)
    ensures var r := CheckConstDecl(ts, i);
      var p := ConstNameAt(ts, i);
      var a := TypeAnnotation(ts, p + 1, At(ts, p).text);
      var init := Initializer(ts, a.next);
      && (a.node.None? && IsArith(At(ts, a.next), "=") && IsPunct(At(ts, a.next + 1), "{") ==> r.Fault?)
      && (a.node.Some? ==> (r.Done? <==> init.Done?))
      && (r.Done? && r.value.node.Some? ==>
            r.value.node.value.id == CStr(At(ts, if IsPunct(At(ts, i), "@") then i + 1 else i).text))
      && (r.Done? ==>
            && init.Done?
            && r.value.next == init.value.next
            && (r.value.node.None? <==> a.node.None?)
            && (r.value.node.Some? ==>
                  && r.value.node.value.kind == a.node.value.kind
                  && r.value.node.value.id == a.node.value.id
                  && r.value.node.value.preferred == a.node.value.preferred
                  && r.value.node.value.children == (if init.value.node.Some? then [init.value.node] else [])))
  {
    ConstFaults(ts, i);
    ConstFinishes(ts, i);
    ConstId(ts, i);
    ConstDeclDone(ts, i);
  }

  lemma ConstFaults(ts: seq<Token>, i: nat)
    ensures var p := ConstNameAt(ts, i);
      var a := TypeAnnotation(ts, p + 1, At(ts, p).text);
      a.node.None? && IsArith(At(ts, a.next), "=") && IsPunct(At(ts, a.next + 1), "{") ==> CheckConstDecl(ts, i).Fault?
  {
  }

  lemma ConstFinishes(ts: seq<Token>, i: nat)
    ensures var p := ConstNameAt(ts, i);
      var a := TypeAnnotation(ts, p + 1, At(ts, p).text);
      a.node.Some? ==> (CheckConstDecl(ts, i).Done? <==> Initializer(ts, a.next).Done?)
  {
  }

  lemma ConstId(ts: seq<Token>, i: nat)
    ensures var r := CheckConstDecl(ts, i);
      r.Done? && r.value.node.Some? ==>
        r.value.node.value.id == CStr(At(ts, if IsPunct(At(ts, i), "@") then i + 1 else i).text)
  {
    ConstDeclNode(ts, i);
  }

  lemma ConstDeclDone(ts: seq<Token>, i: nat)
    ensures var r := CheckConstDecl(ts, i);
      var p := ConstNameAt(ts, i);
      var a := TypeAnnotation(ts, p + 1, At(ts, p).text);
      var init := Initializer(ts, a.next);
      r.Done? ==>
        && init.Done?
        && r.value.next == init.value.next
        && (r.value.node.None? <==> a.node.None?)
  {
    ConstDeclEnds(ts, i);
  }

  lemma ConstDeclNode(ts: seq<Token>, i: nat)
    ensures var r := CheckConstDecl(ts, i);
      var p := ConstNameAt(ts, i);
      var a := TypeAnnotation(ts, p + 1, At(ts, p).text);
      var init := Initializer(ts, a.next);
      r.Done? && r.value.node.Some? ==>
        && init.Done? && a.node.Some?
        && r.value.node.value.kind == a.node.value.kind
        && r.value.node.value.id == a.node.value.id
        && r.value.node.value.preferred == a.node.value.preferred
        && r.value.node.value.children == (if init.value.node.Some? then [init.value.node] else [])
  {
    ConstDeclEnds(ts, i);
  }

  /** `check_for_expression` on the input itself: the cursor stops on the
      next `;` punctuator (or the end), and the node is decided by the
      tokens in between, the first `(` or `=` punctuator among them picking
      a call or an assignment. */
  lemma ExpressionShape(ts: seq<Token>, i: nat)
    ensures var d := CheckExpression(ts, i);
      && d.next == Find(ts, i, ";", Punctuator)
      && (d.next < |ts| ==> IsPunct(ts[d.next], ";"))
      && (d.node.Some? <==> exists k | i <= k < d.next && k < |ts| :: IsShapeToken(ts[k]))
      && (d.node == Some(CallNode) <==> i <= |ts| && CallFirst(ts[i..d.next]))
      && (d.node == Some(AssignNode) ==> exists k | i <= k < d.next && k < |ts| :: IsPunct(ts[k], "="))
  {
    ExpressionFinds(ts, i);
    ExpressionCalls(ts, i);
    ExpressionAssigns(ts, i);
  }

  lemma ExpressionFinds(ts: seq<Token>, i: nat)
    ensures var d := CheckExpression(ts, i);
      d.node.Some? <==> exists k | i <= k < d.next && k < |ts| :: IsShapeToken(ts[k])
  {
    var (span, j) := GetSpan(ts, i, ";", Punctuator);
    ClassifyFinds(span);
    if i <= |ts| {
      if exists k | 0 <= k < |span| :: IsShapeToken(span[k]) {
        var k :| 0 <= k < |span| && IsShapeToken(span[k]);
        assert span[k] == ts[i + k];
      }
      if exists k | i <= k < j && k < |ts| :: IsShapeToken(ts[k]) {
        var k :| i <= k < j && k < |ts| && IsShapeToken(ts[k]);
        assert span[k - i] == ts[k];
      }
    }
  }

  lemma ExpressionCalls(ts: seq<Token>, i: nat)
    ensures var d := CheckExpression(ts, i);
      d.node == Some(CallNode) <==> i <= |ts| && CallFirst(ts[i..d.next])
  {
    var (span, j) := GetSpan(ts, i, ";", Punctuator);
    ClassifyCalls(span);
    if i <= |ts| {
      assert span == ts[i..j];
    }
  }

  lemma ExpressionAssigns(ts: seq<Token>, i: nat)
    ensures var d := CheckExpression(ts, i);
      d.node == Some(AssignNode) ==> exists k | i <= k < d.next && k < |ts| :: IsPunct(ts[k], "=")
  {
    var (span, j) := GetSpan(ts, i, ";", Punctuator);
    ClassifyAssigns(span);
    if Classify(span) == Some(AssignNode) {
      var k :| 0 <= k < |span| && IsPunct(span[k], "=");
      assert span[k] == ts[i + k];
    }
  }

  /** A finished `const` declaration is the annotation completed by the
      initializer. */
  lemma ConstDeclEnds(ts: seq<Token>, i: nat)
    ensures var p := ConstNameAt(ts, i);
      var a := TypeAnnotation(ts, p + 1, At(ts, p).text);
      var init := Initializer(ts, a.next);
      CheckConstDecl(ts, i).Done? ==>
        && init.Done?
        && (init.value.node.Some? ==> a.node.Some?)
        && CheckConstDecl(ts, i).value == WithInitializer(a.node, init.value)
  {
  }

  /** `check_for_variable_decl` returns the annotation's node untouched: a
      block initializer is still parsed (so it decides whether the
      declaration finishes) but its scope is dropped. */
  lemma VarDeclShape(ts: seq<Token>, i: nat)
    ensures var a := TypeAnnotation(ts, i + 1, At(ts, i).text);
      var r := CheckVariableDecl(ts, i);
      var init := Initializer(ts, a.next);
      && (r.Done? <==> init.Done?)
      && (r.Hangs? <==> init.Hangs?)
      && (r.Done? ==> r.value.node == a.node && r.value.next == init.value.next)
  {
  }

  /** `check_for_fn_decl`: the node is a `Function` named after the token
      under the cursor; a `:` after the parameter list takes the return type
      from the registry (an unknown name has no defined behaviour), and
      without it the return type stays `Void`. */
  lemma FnReturnType(ts: seq<Token>, i: nat)
    ensures var r := CheckFnDecl(ts, i);
      var afterParams := AfterParams(ts, i);
      var typed := IsPunct(At(ts, afterParams), ":");
      var typeName := CStr(At(ts, afterParams + 1).text);
      && (typed && typeName !in TypeMap ==> r.Fault?)
      && (r.Done? ==>
            && r.value.node.Some?
            && r.value.node.value.kind == Function
            && r.value.node.value.id == CStr(At(ts, i).text)
            && r.value.node.value.children == []
            && (typed ==> typeName in TypeMap && r.value.node.value.payload == FunctionData(false, TypeMap[typeName]))
            && (!typed ==> r.value.node.value.payload == FunctionData(false, Void)))
  {
    FnHeaderType(ts, i);
    FnDeclNext(ts, i);
  }

  lemma FnHeaderType(ts: seq<Token>, i: nat)
    ensures var h := FnHeader(ts, i);
      var afterParams := AfterParams(ts, i);
      var typed := IsPunct(At(ts, afterParams), ":");
      var typeName := CStr(At(ts, afterParams + 1).text);
      && (typed && typeName !in TypeMap ==> h.Fault?)
      && (h.Done? ==>
            && (typed ==> typeName in TypeMap && h.value.node.value.payload == FunctionData(false, TypeMap[typeName]))
            && (!typed ==> h.value.node.value.payload == FunctionData(false, Void)))
  {
  }

  /** In the idle state `return`, `for`, `while` and `if` change neither the
      state nor the cursor, so `analyze` never finishes once it reaches one. */
  lemma LoopKeywordHangs(ts: seq<Token>, i: nat)
    requires i < |ts| && IsLoopKeyword(ts[i])
    ensures Statement(ts, i).Hangs?
    ensures AnalyzeFrom(ts, i).Hangs?
  {
  }

  /** The number of identifier tokens from position `i` on. */
  function Idents(ts: seq<Token>, i: nat): nat
    decreases |ts| - i
  {
    if i >= |ts| then 0 else (if ts[i].kind == Identifier then 1 else 0) + Idents(ts, i + 1)
  }

  lemma {:induction false} IdentsMonotone(ts: seq<Token>, i: nat, j: nat)
    requires i <= j
    ensures Idents(ts, j) <= Idents(ts, i)
    decreases j - i
  {
    if i < j {
      IdentsMonotone(ts, i + 1, j);
    }
  }

  /** `analyze` pushes one entry per statement that starts with an
      identifier, so the forest is never longer than the number of
      identifier tokens. */
  lemma {:induction false} AnalyzeFromCount(ts: seq<Token>, i: nat)
    ensures AnalyzeFrom(ts, i).Done? ==> |AnalyzeFrom(ts, i).value| <= Idents(ts, i)
    decreases |ts| - i
  {
    if i < |ts| {
      var s := Statement(ts, i);
      if s.Done? {
        var a := s.value;
        AnalyzeFromCount(ts, a.next);
        IdentsMonotone(ts, i + 1, a.next);
      }
    }
  }

  /** A token sequence without identifiers analyzes to the empty forest. */
  lemma NoIdentifiersNoNodes(ts: seq<Token>)
    requires forall k | 0 <= k < |ts| :: ts[k].kind != Identifier
    ensures Analyze(ts) == Done([])
  {
    assert Tame(ts);
    var r := Analyze(ts);
    assert r.Done?;
    NoIdentsFrom(ts, 0);
    AnalyzeFromCount(ts, 0);
    assert |r.value| <= 0;
  }

  lemma {:induction false} NoIdentsFrom(ts: seq<Token>, i: nat)
    requires forall k | 0 <= k < |ts| :: ts[k].kind != Identifier
    ensures Idents(ts, i) == 0
    decreases |ts| - i
  {
    if i < |ts| {
      NoIdentsFrom(ts, i + 1);
    }
  }
}

=== FILE: nodes.dfy ===
/** The syntax-tree node model of src/main.cpp (namespace `ServerLang`): the
    closed `Type` enumeration, the class hierarchy rooted at `ASTNode`, the
    `keywords` and `type_map` registries and the `get_type_instance` factory.

    The hierarchy becomes one tagged datatype: the shared envelope (id,
    preferred type, owned children) plus a payload for the classes that add
    fields (`Scope::executable`, `Function::return_t`, `Expression::opr`).
    Primitive value payloads and the raw `parent`/`lhs`/`rhs` pointers are
    not modelled. */
module Nodes {
  import opened Options

  /** `ServerLang::Type`, in declaration order. */
  datatype NodeKind =
    | Undefined
    | I16 | I32 | I64 | U8 | U16 | F32 | F64 | Bool | Complex | String | Variant | Void
    | Array | Class | Struct | Json | Route
    | Scope | Object | Function | Primitive | Expression
    | ArithmeticExpression | LogicalExpression | AssignmentExpression | CallExpression | AccessExpression

  /** `ServerLang::Operators`. */
  datatype Operator = Add | Sub | Mul | Div | Incr | Dcr | And | Or | Xor | Nand | Nor | Asgn | Call | Acc

  /** The fields a node carries beyond the common envelope. */
  datatype Payload =
    | Plain
    | ScopeData(executable: bool)
    | FunctionData(executable: bool, returnType: NodeKind)
    | ExpressionData(op: Operator)

  /** A node: `kind` is what the virtual `type()` reports. Children are owned
      handles and may be null, as the analyzer moves null results into a
      scope's children too. */
  datatype Node = Node(id: string, kind: NodeKind, preferred: NodeKind, children: seq<Option<Node>>, payload: Payload)

  /** The id `ASTNode` starts with. */
  const NoId: string := "__NO_ID__"

  /** The reserved identifiers (`ServerLang::keywords`). */
  const Keywords: set<string> := {"var", "const", "def", "return", "for", "while", "if"}

  /** The declared-type registry (`ServerLang::type_map`). */
  const TypeMap: map<string, NodeKind> := map[
    "I16" := I16, "I32" := I32, "I64" := I64, "U8" := U8, "U16" := U16,
    "F32" := F32, "F64" := F64, "Bool" := Bool, "Complex" := Complex,
    "String" := String, "Variant" := Variant, "Void" := Void,
    "Array" := Array, "Class" := Class, "Struct" := Struct, "Json" := Json,
    "Route" := Route
  ]

  predicate IsExpressionKind(k: NodeKind) {
    k in {ArithmeticExpression, LogicalExpression, AssignmentExpression, CallExpression, AccessExpression}
  }

  /** Depth of a class below `ASTNode`. */
  function Depth(k: NodeKind): nat {
    match k
    case Undefined => 0
    case Scope | Primitive | Expression => 1
    case Object | Function => 2
    case Array | Class | Struct | Json | Route => 3
    case _ => 2
  }

  /** The direct base class of each class (`ASTNode` is its own root). */
  function Base(k: NodeKind): (b: NodeKind)
    requires k != Undefined
    ensures Depth(b) < Depth(k)
  {
    match k
    case Scope | Primitive | Expression => Undefined
    case Object | Function => Scope
    case Array | Class | Struct | Json | Route => Object
    case I16 | I32 | I64 | U8 | U16 | F32 | F64 | Bool | Complex | String | Variant | Void => Primitive
    case ArithmeticExpression | LogicalExpression | AssignmentExpression | CallExpression | AccessExpression => Expression
  }

  /** The classes whose constructor is `DEFAULT_NODE_CONSTRUCTOR`, which calls
      `setPreferredType(this->type())`; the five expression classes have
      their own constructors, which do not. */
  predicate SetsPreferred(k: NodeKind) {
    !IsExpressionKind(k)
  }

  /** The values `m_preferredType` takes while a node of class `k` is built,
      base constructor first. Inside each constructor the virtual `type()`
      resolves to that constructor's own class. */
  function PreferredWrites(k: NodeKind): (w: seq<NodeKind>)
    ensures |w| > 0 && w[0] == Undefined
    ensures |w| <= Depth(k) + 1
    ensures w[|w| - 1] == (if IsExpressionKind(k) then Expression else k)
    decreases Depth(k)
  {
    if k == Undefined then [Undefined]
    else PreferredWrites(Base(k)) + (if SetsPreferred(k) then [k] else [])
  }

  /** The preferred type a freshly constructed node of class `k` ends with. */
  function Preferred(k: NodeKind): NodeKind {
    var w := PreferredWrites(k);
    w[|w| - 1]
  }

  /** The payload a freshly constructed node of class `k` ends with. */
  function InitialPayload(k: NodeKind, op: Operator): Payload {
    if k == Function then FunctionData(false, Void)
    else if k in {Scope, Object, Array, Class, Struct, Json, Route} then ScopeData(false)
    else if IsExpressionKind(k) then ExpressionData(op)
    else Plain
  }

  /** `new K{}` for a class of kind `k` (operator `op` for the expression
      classes, whose operands are always null in this program). */
  function Construct(k: NodeKind, op: Operator): (n: Node)
    ensures n.kind == k && n.id == NoId && n.children == []
    ensures n.preferred == (if IsExpressionKind(k) then Expression else k)
    ensures n.payload.ExpressionData? <==> IsExpressionKind(k)
    ensures n.payload.FunctionData? <==> k == Function
  {
    Node(NoId, k, Preferred(k), [], InitialPayload(k, op))
  }

  /** `get_type_instance(Type)`: a fresh node for the kinds the switch lists,
      the null handle for every other kind. */
  function InstanceOf(k: NodeKind): (r: Option<Node>)
    ensures r.Some? ==> r.value.kind == k && r.value.preferred == k && r.value.id == NoId && r.value.children == []
    ensures r.Some? ==> !IsExpressionKind(k)
  {
    if Buildable(k) then
      Some(Construct(k, Add))
    else None
  }

  /** The kinds the `switch` of `get_type_instance` lists. */
  predicate Buildable(k: NodeKind) {
    IsPrimitiveKind(k) || IsCompoundKind(k)
  }

  predicate IsPrimitiveKind(k: NodeKind) {
    k in {I16, I32, I64, U8, U16, F32, F64, Bool, Complex, String, Variant, Void}
  }

  predicate IsCompoundKind(k: NodeKind) {
    k in {Array, Class, Struct, Json, Route}
  }

  /** The factory and the registry agree: `get_type_instance` builds a node
      for exactly the kinds `type_map` names. */
  lemma FactoryMatchesRegistry(k: NodeKind)
    ensures InstanceOf(k).Some? <==> k in TypeMap.Values
  {
    if InstanceOf(k).Some? {
      KindNameRegistered(k);
    } else {
      RegistryHasInstances();
      forall name | name in TypeMap
        ensures TypeMap[name] != k
      {
        assert InstanceOf(TypeMap[name]).Some?;
      }
    }
  }

  /** Every kind the factory builds is registered under its own name. */
  lemma KindNameRegistered(k: NodeKind)
    requires InstanceOf(k).Some?
    ensures KindName(k) in TypeMap && TypeMap[KindName(k)] == k
  {
    if k in {I16, I32, I64, U8, U16, F32} {
      FirstKindsRegistered(k);
    } else if k in {F64, Bool, Complex, String, Variant, Void} {
      MiddleKindsRegistered(k);
    } else {
      LastKindsRegistered(k);
    }
  }

  lemma FirstKindsRegistered(k: NodeKind)
    requires k in {I16, I32, I64, U8, U16, F32}
    ensures KindName(k) in TypeMap && TypeMap[KindName(k)] == k
  {
  }

  lemma MiddleKindsRegistered(k: NodeKind)
    requires k in {F64, Bool, Complex, String, Variant, Void}
    ensures KindName(k) in TypeMap && TypeMap[KindName(k)] == k
  {
  }

  lemma LastKindsRegistered(k: NodeKind)
    requires k in {Array, Class, Struct, Json, Route}
    ensures KindName(k) in TypeMap && TypeMap[KindName(k)] == k
  {
  }

  /** Every registered kind is one the factory can build. */
  lemma RegistryHasInstances()
    ensures forall name | name in TypeMap :: InstanceOf(TypeMap[name]).Some?
  {
  }

  /** The registry name of a registry kind, used to witness membership. */
  function KindName(k: NodeKind): string {
    match k
    case I16 => "I16" case I32 => "I32" case I64 => "I64" case U8 => "U8" case U16 => "U16"
    case F32 => "F32" case F64 => "F64" case Bool => "Bool" case Complex => "Complex"
    case String => "String" case Variant => "Variant" case Void => "Void"
    case Array => "Array" case Class => "Class" case Struct => "Struct" case Json => "Json"
    case Route => "Route"
    case _ => ""
  }

  /** `get_type_instance(const char *)`. The source dereferences the map's
      `end()` for an unknown name, so the name must be registered. */
  function InstanceNamed(name: string): (r: Node)
    requires name in TypeMap
    ensures r.kind == TypeMap[name] && r.preferred == r.kind && !IsExpressionKind(r.kind)
    ensures r.id == NoId && r.children == []
  {
    FactoryMatchesRegistry(TypeMap[name]);
    InstanceOf(TypeMap[name]).value
  }

  /** `type_string()` of each class. */
  function DisplayName(k: NodeKind): string {
    match k
    case Undefined => "Undefined"
    case I16 => "Integer_16" case I32 => "Integer_32" case I64 => "Integer_64"
    case U8 => "Unsigned_8" case U16 => "Unsigned_16"
    case F32 => "Float_32" case F64 => "Float_64"
    case Bool => "Boolean" case Complex => "Complex" case String => "String"
    case Variant => "Variant" case Void => "Void"
    case Array => "Array" case Class => "Class" case Struct => "Struct"
    case Json => "Json" case Route => "Route"
    case Scope => "Scope" case Object => "Object" case Function => "Function"
    case Primitive => "Primitive" case Expression => "Expression"
    case ArithmeticExpression => "ArithmeticExpression"
    case LogicalExpression => "LogicalExpression"
    case AssignmentExpression => "AssignmentExpression"
    case CallExpression => "CallExpression"
    case AccessExpression => "AccessExpression"
  }

  /** A constructed node's preferred type is its own kind, except for the
      expression classes, whose constructors leave the value `Expression`
      wrote. */
  lemma PreferredIsOwnKind(k: NodeKind)
    ensures Preferred(k) == k <==> !IsExpressionKind(k)
    ensures IsExpressionKind(k) ==> Preferred(k) == Expression
  {
  }

  /** Every class reports a different display name. */
  lemma DisplayNameInjective(a: NodeKind, b: NodeKind)
    requires DisplayName(a) == DisplayName(b)
    ensures a == b
  {
    if a in {Undefined, I16, I32, I64, U8, U16, F32, F64} {
      NumericNamesDistinct(a, b);
    } else if a in {Bool, Complex, String, Variant, Void, Array, Class} {
      ValueNamesDistinct(a, b);
    } else if a in {Struct, Json, Route, Scope, Object, Function, Primitive} {
      ContainerNamesDistinct(a, b);
    } else {
      ExpressionNamesDistinct(a, b);
    }
  }

  lemma NumericNamesDistinct(a: NodeKind, b: NodeKind)
    requires a in {Undefined, I16, I32, I64, U8, U16, F32, F64}
    requires DisplayName(a) == DisplayName(b)
    ensures a == b
  {
  }

  lemma ValueNamesDistinct(a: NodeKind, b: NodeKind)
    requires a in {Bool, Complex, String, Variant, Void, Array, Class}
    requires DisplayName(a) == DisplayName(b)
    ensures a == b
  {
  }

  lemma ContainerNamesDistinct(a: NodeKind, b: NodeKind)
    requires a in {Struct, Json, Route, Scope, Object, Function, Primitive}
    requires DisplayName(a) == DisplayName(b)
    ensures a == b
  {
  }

  lemma ExpressionNamesDistinct(a: NodeKind, b: NodeKind)
    requires a in {Expression, ArithmeticExpression, LogicalExpression, AssignmentExpression, CallExpression, AccessExpression}
    requires DisplayName(a) == DisplayName(b)
    ensures a == b
  {
  }

  /** No reserved word is a registered type name. */
  lemma KeywordsAreNotTypes()
    ensures forall w | w in Keywords :: w !in TypeMap
  {
  }
}

=== FILE: options.dfy ===
/** Optional values, standing in for the nullable `node_ptr` handles of the
    analyzer: `None` is the null node that failed declarations and
    unclassified expressions push into the forest. */
module Options {
  datatype Option<+T> = None | Some(value: T)
}

=== FILE: pipeline.dfy ===
/** The tokenizer and the analyzer together: `check_for_expression` looks
    for an `=` tagged `PUNCTUATOR`, but the tokenizer only ever tags `=` as
    an arithmetic operator (or keeps it inside a string or comment), so on
    the tokenizer's own output no assignment expression is ever built. */
module Pipeline {
  import opened Options
  import opened Tokens
  import opened Tokenizer
  import opened TokenizerLemmas
  import opened Analyzer

  lemma TokenizerOutputHasNoAssignPunct(source: string)
    ensures NoAssignPunct(Evaluate(source))
  {
    var ts := Evaluate(source);
    NoAssignPunctuator(source);
    forall k | 0 <= k < |ts|
      ensures !IsPunct(ts[k], "=")
    {
      assert ts[k] in ts;
    }
  }

  /** The assignment branch of `check_for_expression` is dead on tokenizer
      output: wherever the cursor stands, the result is not an assignment,
      and no tree `analyze` builds holds one at any depth. */
  lemma AssignmentUnreachable(source: string, i: nat)
    ensures CheckExpression(Evaluate(source), i).node != Some(AssignNode)
    ensures Analyze(Evaluate(source)).Done? ==> AllAssignFree(Analyze(Evaluate(source)).value)
  {
    TokenizerOutputHasNoAssignPunct(source);
  }
}

=== FILE: tokenizer.dfy ===
/** The single-pass tokenizer of src/main.cpp (`Tokenizer::evaluate`,
    `end_token`, `get_span`).

    The loop of `evaluate` keeps one accumulator token and the list of
    finished tokens; here that pair is a `Lexer` value, one byte is one
    `Step`, and the whole pass is the fold `Run`. As in the source, a token
    still open when the input ends is not flushed. */
module Tokenizer {
  import opened Tokens

  datatype Lexer = Lexer(current: Token, emitted: seq<Token>)

  /** A fresh tokenizer: nothing pending, nothing emitted. */
  const Init: Lexer := Lexer(Blank, [])

  /** What `end_token` pushes for accumulator `t`: nothing for the sentinel. */
  function Pending(t: Token): seq<Token> {
    if t.kind != WhiteSpace then [t] else []
  }

  /** The tokens a state accounts for: those emitted plus the pending one. */
  function Count(st: Lexer): nat {
    |st.emitted| + |Pending(st.current)|
  }

  /** `end_token`: push the accumulator unless it is the sentinel, then reset it. */
  function EndToken(st: Lexer): (r: Lexer)
    ensures r.current == Blank
    ensures st.emitted <= r.emitted
    ensures Count(r) == Count(st)
    ensures |r.emitted| > |st.emitted| ==> r.emitted[|st.emitted|] == st.current && st.current.kind != WhiteSpace
  {
    Lexer(Blank, st.emitted + Pending(st.current))
  }

  /** `setType(kind)` followed by `data().append(1, c)` on the accumulator. */
  function Extend(st: Lexer, kind: TokenKind, c: char): (r: Lexer)
    ensures r.emitted == st.emitted
    ensures kind != WhiteSpace ==> Count(r) <= Count(st) + 1
  {
    Lexer(Token(kind, st.current.text + [c]), st.emitted)
  }

  /** Append `c` to the accumulator, keeping its kind. */
  function Append(st: Lexer, c: char): Lexer {
    Extend(st, st.current.kind, c)
  }

  /** One iteration of the `switch` in `evaluate`. */
  function Step(st: Lexer, c: char): (r: Lexer)
    ensures st.emitted <= r.emitted
    ensures Count(r) <= Count(st) + 1
  {
    var cur := st.current;
    var literal := InStringOrComment(cur);
    if IsDigit(c) then
      // a digit starts a number only on an empty accumulator; otherwise it
      // extends whatever is open, whatever its kind
      Extend(st, if cur.kind == WhiteSpace then NumericLiteral else cur.kind, c)
    else if IsWordChar(c) then
      // retags the whole open token, so "12ab" and "x=a" become identifiers
      if literal then Append(st, c) else Extend(st, Identifier, c)
    else if IsSinglePunct(c) then
      if literal then Append(st, c) else EndToken(Extend(EndToken(st), Punctuator, c))
    else if c == ':' then
      if cur == Token(Punctuator, ":") then EndToken(Extend(st, AccessOperator, c))
      else if literal then Append(st, c)
      else Extend(EndToken(st), Punctuator, c)
    else if c == '$' then
      if literal then Append(st, c) else EndToken(Extend(st, PointerOperator, c))
    else if c == '.' then
      if cur.kind == NumericLiteral || literal then Append(st, c)
      else EndToken(Extend(st, AccessOperator, c))
    else if IsLogicChar(c) then
      if literal then Append(st, c) else Extend(st, LogicOperator, c)
    else if c == '*' then
      if literal then Append(st, c)
      else if cur.text == "/" then Extend(st, Identifier, c)
      else Extend(st, ArithmeticOperator, c)
    else if c == '/' || IsArithChar(c) then
      // a `/` on a pending "/" retags it as a comment (in any mode) and falls
      // through to the branch shared with `+ - ^ =`
      var kind := if c == '/' && cur.text == "/" then Comment else cur.kind;
      if kind == StringLiteral || kind == Comment then Extend(st, kind, c)
      else Extend(st, ArithmeticOperator, c)
    else if IsLineBreak(c) then
      EndToken(st)
    else if IsBlankChar(c) then
      if literal then Append(st, c) else EndToken(st)
    else if c == '"' then
      // quotes are never stored; inside a comment a quote is dropped
      if !literal then Lexer(Token(StringLiteral, ""), EndToken(st).emitted)
      else if cur.kind == StringLiteral then EndToken(st)
      else st
    else
      // any other byte is literal text in a string or comment, else dropped
      if literal then Append(st, c) else st
  }

  /** The loop of `evaluate`: feed the bytes of `s` to `Step` in order. */
  function Run(st: Lexer, s: string): (r: Lexer)
    ensures st.emitted <= r.emitted
    ensures Count(r) <= Count(st) + |s|
    decreases |s|
  {
    if |s| == 0 then st else Run(Step(st, s[0]), s[1..])
  }

  /** `Tokenizer::evaluate`: the emitted tokens, without a final flush. */
  function Evaluate(source: string): (r: seq<Token>)
    ensures |r| <= |source|
  {
    Run(Init, source).emitted
  }

  /** The `get_span` stopping test: same text and same kind. */
  predicate Delimits(t: Token, delim: string, kind: TokenKind) {
    t.text == delim && t.kind == kind
  }

  /** The first position at or after `i` holding a delimiter, or the end of
      `ts` when there is none (the source would read past the end). */
  function Find(ts: seq<Token>, i: nat, delim: string, kind: TokenKind): (j: nat)
    ensures i <= j
    ensures i <= |ts| ==> j <= |ts|
    ensures j < |ts| ==> Delimits(ts[j], delim, kind)
    ensures forall k | i <= k < j && k < |ts| :: !Delimits(ts[k], delim, kind)
    decreases |ts| - i
  {
    if i >= |ts| || Delimits(ts[i], delim, kind) then i
    else Find(ts, i + 1, delim, kind)
  }

  /** `get_span`: the tokens before the next delimiter, and the cursor left
      on that delimiter. */
  function GetSpan(ts: seq<Token>, i: nat, delim: string, kind: TokenKind): (r: (seq<Token>, nat))
    ensures i <= r.1
    ensures i <= |ts| ==> r.1 <= |ts| && ts[i..] == r.0 + ts[r.1..]
    ensures forall t | t in r.0 :: !Delimits(t, delim, kind)
    ensures r.1 == |ts| || (r.1 < |ts| && Delimits(ts[r.1], delim, kind)) || (|ts| < i && r.1 == i)
  {
    var j := Find(ts, i, delim, kind);
    if i <= |ts| then
      assert ts[i..] == ts[i..j] + ts[j..];
      (ts[i..j], j)
    else ([], j)
  }
}

=== FILE: tokenizer_lemmas.dfy ===
/** Properties of the tokenizer of src/main.cpp: what can and cannot appear in
    its output, how strings and line comments are delimited, and how the
    punctuation bytes flush the accumulator. */
module TokenizerLemmas {
  import opened Tokens
  import opened Tokenizer

  /** Quote, CR and LF bytes are structural: no token ever stores them. */
  predicate Clean(t: Token) {
    '"' !in t.text && '\r' !in t.text && '\n' !in t.text
  }

  /** What every emitted token satisfies: a real kind (never the sentinel,
      never the unused `KEYWORD`/`GARBAGE_TYPE`), clean text, and a punctuator
      that starts with one of the punctuator bytes. */
  predicate Emittable(t: Token) {
    && t.kind != WhiteSpace && t.kind != Keyword && t.kind != GarbageType
    && Clean(t)
    && (t.kind == Punctuator ==> |t.text| > 0 && (IsSinglePunct(t.text[0]) || t.text[0] == ':'))
  }

  /** The invariant of the `evaluate` loop. */
  predicate LexInv(st: Lexer) {
    && (forall t | t in st.emitted :: Emittable(t))
    && (st.current == Blank || Emittable(st.current))
  }

  lemma StepKeepsInv(st: Lexer, c: char)
    requires LexInv(st)
    ensures LexInv(Step(st, c))
  {
    if InStringOrComment(st.current) {
      LiteralStepKeepsInv(st, c);
    } else if IsSinglePunct(c) || c == ':' || c == '$' || c == '.' || IsLineBreak(c) || IsBlankChar(c) || c == '"' {
      FlushingStepKeepsInv(st, c);
    } else {
      assert Step(st, c).emitted == st.emitted;
    }
  }

  /** Inside a string or comment a byte is appended, dropped, or ends the token. */
  lemma LiteralStepKeepsInv(st: Lexer, c: char)
    requires LexInv(st) && InStringOrComment(st.current)
    ensures LexInv(Step(st, c))
  {
    if IsLineBreak(c) || (c == '"' && st.current.kind == StringLiteral) {
      EndTokenKeepsInv(st);
    } else {
      assert Step(st, c).emitted == st.emitted;
    }
  }

  /** Outside a string or comment, the bytes that may flush the accumulator. */
  lemma FlushingStepKeepsInv(st: Lexer, c: char)
    requires LexInv(st) && !InStringOrComment(st.current)
    requires IsSinglePunct(c) || c == ':' || c == '$' || c == '.' || IsLineBreak(c) || IsBlankChar(c) || c == '"'
    ensures LexInv(Step(st, c))
  {
    if IsSinglePunct(c) {
      PunctKeepsInv(st, c);
    } else if c == ':' {
      ColonKeepsInv(st);
    } else if c == '$' || c == '.' {
      RetagKeepsInv(st, c);
    } else {
      assert Step(st, c) == EndToken(st) || Step(st, c) == Lexer(Token(StringLiteral, ""), EndToken(st).emitted);
      EndTokenKeepsInv(st);
    }
  }

  lemma PunctKeepsInv(st: Lexer, c: char)
    requires LexInv(st) && !InStringOrComment(st.current) && IsSinglePunct(c)
    ensures LexInv(Step(st, c))
  {
    EndTokenKeepsInv(st);
    EndTokenKeepsInv(Extend(EndToken(st), Punctuator, c));
  }

  lemma ColonKeepsInv(st: Lexer)
    requires LexInv(st) && !InStringOrComment(st.current)
    ensures LexInv(Step(st, ':'))
  {
    if st.current == Token(Punctuator, ":") {
      EndTokenKeepsInv(Extend(st, AccessOperator, ':'));
    } else {
      EndTokenKeepsInv(st);
    }
  }

  lemma RetagKeepsInv(st: Lexer, c: char)
    requires LexInv(st) && !InStringOrComment(st.current) && (c == '$' || c == '.')
    ensures LexInv(Step(st, c))
  {
    if c == '$' {
      EndTokenKeepsInv(Extend(st, PointerOperator, c));
    } else if st.current.kind != NumericLiteral {
      EndTokenKeepsInv(Extend(st, AccessOperator, c));
    }
  }

  /** Flushing keeps the invariant: the pushed accumulator was emittable. */
  lemma EndTokenKeepsInv(st: Lexer)
    requires LexInv(st)
    ensures LexInv(EndToken(st))
  {
    forall t | t in EndToken(st).emitted
      ensures Emittable(t)
    {
      if t !in st.emitted {
        assert t == st.current;
      }
    }
  }

  /** Only flushes change the emitted list, and they only append to it. */
  lemma StepOnlyAppends(st: Lexer, c: char)
    ensures st.emitted <= Step(st, c).emitted
  {
  }

  lemma RunOne(st: Lexer, c: char)
    ensures Run(st, [c]) == Step(st, c)
  {
    assert [c][1..] == [];
  }

  lemma RunCons(st: Lexer, c: char, s: string)
    ensures Run(st, [c] + s) == Run(Step(st, c), s)
  {
    assert ([c] + s)[1..] == s;
  }

  /** Running a concatenation is running its parts one after the other. */
  lemma {:induction false} RunAppend(st: Lexer, a: string, b: string)
    ensures Run(st, a + b) == Run(Run(st, a), b)
    decreases |a|
  {
    if |a| == 0 {
      assert a + b == b;
    } else {
      assert (a + b)[1..] == a[1..] + b;
      RunAppend(Step(st, a[0]), a[1..], b);
    }
  }

  lemma {:induction false} RunKeepsInv(st: Lexer, s: string)
    requires LexInv(st)
    ensures LexInv(Run(st, s))
    decreases |s|
  {
    if |s| > 0 {
      StepKeepsInv(st, s[0]);
      RunKeepsInv(Step(st, s[0]), s[1..]);
    }
  }

  /** No emitted token is the `WHITE_SPACE` sentinel, none is tagged `KEYWORD`,
      and no token text holds a quote, CR or LF byte. */
  lemma EvaluateEmittable(source: string)
    ensures forall t | t in Evaluate(source) ::
      t.kind != WhiteSpace && t.kind != Keyword && '"' !in t.text && '\n' !in t.text && '\r' !in t.text
  {
    RunKeepsInv(Init, source);
  }

  /** The tokenizer never produces a `=` punctuator: `=` is only ever an
      arithmetic operator or literal text. */
  lemma {:induction false} NoAssignPunctuator(source: string)
    ensures forall t | t in Evaluate(source) :: !IsPunct(t, "=")
  {
    RunKeepsInv(Init, source);
    forall t | t in Evaluate(source)
      ensures !IsPunct(t, "=")
    {
      assert Emittable(t);
    }
  }

  /** Single pass, no backtracking: a longer input only adds tokens at the end. */
  lemma {:induction false} RunOnlyAppends(st: Lexer, s: string)
    ensures st.emitted <= Run(st, s).emitted
    decreases |s|
  {
    if |s| > 0 {
      StepOnlyAppends(st, s[0]);
      RunOnlyAppends(Step(st, s[0]), s[1..]);
    }
  }

  lemma EvaluatePrefix(s: string, t: string)
    ensures Evaluate(s) <= Evaluate(s + t)
  {
    RunAppend(Init, s, t);
    RunOnlyAppends(Run(Init, s), t);
  }

  /** The token open at the end of the input is not emitted; a line break
      after it emits exactly that token. */
  lemma LineBreakFlushes(s: string, c: char)
    requires IsLineBreak(c)
    ensures Evaluate(s + [c]) == Evaluate(s) + Pending(Run(Init, s).current)
    ensures Run(Init, s + [c]).current == Blank
  {
    RunAppend(Init, s, [c]);
    RunOne(Run(Init, s), c);
  }

  /** Words and numbers stay open: input made only of letters, `_` and digits
      emits nothing, because `evaluate` returns without a final flush. */
  lemma {:induction false} WordsEmitNothing(st: Lexer, s: string)
    requires st.emitted == []
    requires st.current.kind in {WhiteSpace, Identifier, NumericLiteral}
    requires forall k | 0 <= k < |s| :: IsWordChar(s[k]) || IsDigit(s[k])
    ensures Run(st, s).emitted == []
    decreases |s|
  {
    if |s| > 0 {
      WordsEmitNothing(Step(st, s[0]), s[1..]);
    }
  }

  /** Outside a string or comment, each of `{ } ( ) ; , @` flushes the open
      token and then is emitted alone as a one-byte punctuator. */
  lemma PunctuatorStep(s: string, c: char)
    requires IsSinglePunct(c)
    requires !InStringOrComment(Run(Init, s).current)
    ensures Evaluate(s + [c]) == Evaluate(s) + Pending(Run(Init, s).current) + [Token(Punctuator, [c])]
    ensures Run(Init, s + [c]).current == Blank
  {
    var st := Run(Init, s);
    RunAppend(Init, s, [c]);
    RunOne(st, c);
    var flushed := Lexer(Blank, st.emitted + Pending(st.current));
    assert EndToken(st) == flushed;
    assert Extend(flushed, Punctuator, c) == Lexer(Token(Punctuator, [c]), flushed.emitted);
  }

  /** A `:` on a pending ":" punctuator becomes one `::` access operator. */
  lemma DoubleColonStep(s: string)
    requires Run(Init, s).current == Token(Punctuator, ":")
    ensures Evaluate(s + [':']) == Evaluate(s) + [Token(AccessOperator, "::")]
    ensures Run(Init, s + [':']).current == Blank
  {
    var st := Run(Init, s);
    RunAppend(Init, s, [':']);
    RunOne(st, ':');
    assert Extend(st, AccessOperator, ':') == Lexer(Token(AccessOperator, "::"), st.emitted);
  }

  /** Any other `:` outside a string or comment flushes the open token and
      leaves ":" pending, so that a second `:` can complete `::`. */
  lemma SingleColonStep(s: string)
    requires Run(Init, s).current != Token(Punctuator, ":")
    requires !InStringOrComment(Run(Init, s).current)
    ensures Evaluate(s + [':']) == Evaluate(s) + Pending(Run(Init, s).current)
    ensures Run(Init, s + [':']).current == Token(Punctuator, ":")
  {
    RunAppend(Init, s, [':']);
    RunOne(Run(Init, s), ':');
  }

  /** A digit starts a `NUMERIC_LITERAL` on an empty accumulator and
      otherwise extends the open token without changing its kind. */
  lemma DigitStep(st: Lexer, c: char)
    requires IsDigit(c)
    ensures Step(st, c) == Lexer(Token(if st.current.kind == WhiteSpace then NumericLiteral else st.current.kind,
                                       st.current.text + [c]), st.emitted)
  {
  }

  /** Outside a string or comment, a letter or `_`, a logic byte, or one of
      `+ - ^ =` retags the whole open token (so "x=" is one arithmetic
      operator and "1a" one identifier) and appends the byte, without a
      flush. */
  lemma RetagStep(st: Lexer, c: char)
    requires !InStringOrComment(st.current)
    requires IsArithChar(c) || IsLogicChar(c) || IsWordChar(c)
    ensures Step(st, c) == Lexer(Token(if IsArithChar(c) then ArithmeticOperator
                                       else if IsLogicChar(c) then LogicOperator
                                       else Identifier, st.current.text + [c]), st.emitted)
  {
  }

  /** Outside a string or comment, `$` (and `.` unless a number is open)
      retags the whole open token, appends the byte and flushes it, with no
      flush before: "a.b" yields "a." and then "b". */
  lemma RetagFlushStep(st: Lexer, c: char)
    requires !InStringOrComment(st.current)
    requires c == '$' || (c == '.' && st.current.kind != NumericLiteral)
    ensures Step(st, c) == Lexer(Blank, st.emitted + [Token(if c == '$' then PointerOperator else AccessOperator,
                                                              st.current.text + [c])])
  {
  }

  /** Outside a string or comment a tab or space flushes the open token. */
  lemma BlankStep(st: Lexer, c: char)
    requires !InStringOrComment(st.current) && IsBlankChar(c)
    ensures Step(st, c) == EndToken(st)
  {
  }

  /** The bytes no branch of the `switch` names. */
  predicate Unclassified(c: char) {
    && !IsDigit(c) && !IsWordChar(c) && !IsSinglePunct(c) && !IsLogicChar(c) && !IsArithChar(c)
    && !IsLineBreak(c) && !IsBlankChar(c)
    && c !in {':', '$', '.', '*', '/', '"'}
  }

  /** Outside a string or comment such a byte is dropped. */
  lemma DropStep(st: Lexer, c: char)
    requires !InStringOrComment(st.current) && Unclassified(c)
    ensures Step(st, c) == st
  {
  }

  /** `x=` followed by a blank is one arithmetic operator. */
  lemma AssignRetagExample()
    ensures Evaluate("x= ") == [Token(ArithmeticOperator, "x=")]
  {
    var s1 := Lexer(Token(Identifier, "x"), []);
    var s2 := Lexer(Token(ArithmeticOperator, "x="), []);
    assert "x= " == ['x', '=', ' '];
    ThreeSteps(Init, 'x', '=', ' ');
    RetagStep(Init, 'x');
    assert Step(Init, 'x') == s1;
    RetagStep(s1, '=');
    assert Step(s1, '=') == s2;
    BlankStep(s2, ' ');
  }

  /** `1a` followed by a blank is one identifier. */
  lemma DigitsThenLettersExample()
    ensures Evaluate("1a ") == [Token(Identifier, "1a")]
  {
    var s1 := Lexer(Token(NumericLiteral, "1"), []);
    var s2 := Lexer(Token(Identifier, "1a"), []);
    assert "1a " == ['1', 'a', ' '];
    ThreeSteps(Init, '1', 'a', ' ');
    DigitStep(Init, '1');
    assert Step(Init, '1') == s1;
    RetagStep(s1, 'a');
    assert Step(s1, 'a') == s2;
    BlankStep(s2, ' ');
  }

  lemma ThreeSteps(st: Lexer, a: char, b: char, c: char)
    ensures Run(st, [a, b, c]) == Step(Step(Step(st, a), b), c)
  {
    RunCons(st, a, [b, c]);
    assert [a, b, c] == [a] + [b, c];
    RunCons(Step(st, a), b, [c]);
    assert [b, c] == [b] + [c];
    RunOne(Step(Step(st, a), b), c);
  }

  /** Inside a string or comment every byte but CR, LF and `"` is appended
      verbatim; the kind is kept, except that a `/` on the text "/" retags
      the token as a comment. */
  lemma LiteralStep(st: Lexer, c: char)
    requires InStringOrComment(st.current)
    requires !IsLineBreak(c) && c != '"'
    ensures Step(st, c).emitted == st.emitted
    ensures Step(st, c).current.text == st.current.text + [c]
    ensures Step(st, c).current.kind ==
      (if c == '/' && st.current.text == "/" then Comment else st.current.kind)
  {
  }

  /** The text of a string literal that cannot be mistaken for a comment
      opener and holds no quote or line break. */
  predicate PlainStringText(t: string) {
    && (forall k | 0 <= k < |t| :: t[k] != '"' && !IsLineBreak(t[k]))
    && !(|t| >= 2 && t[0] == '/' && t[1] == '/')
  }

  lemma {:induction false} StringBody(e: seq<Token>, pre: string, t: string)
    requires forall k | 0 <= k < |t| :: t[k] != '"' && !IsLineBreak(t[k])
    requires pre == "/" ==> |t| == 0 || t[0] != '/'
    requires pre == "" ==> !(|t| >= 2 && t[0] == '/' && t[1] == '/')
    ensures Run(Lexer(Token(StringLiteral, pre), e), t) == Lexer(Token(StringLiteral, pre + t), e)
    decreases |t|
  {
    if |t| == 0 {
      assert pre + t == pre;
    } else {
      var st := Lexer(Token(StringLiteral, pre), e);
      LiteralStep(st, t[0]);
      assert Step(st, t[0]) == Lexer(Token(StringLiteral, pre + [t[0]]), e);
      if pre + [t[0]] == "/" {
        assert |pre| == 0;
        assert pre == "";
        assert (pre + [t[0]])[0] == t[0];
        assert |t| < 2 || t[1] != '/';
        assert |t[1..]| == 0 || t[1..][0] != '/';
      }
      StringBody(e, pre + [t[0]], t[1..]);
      assert (pre + [t[0]]) + t[1..] == pre + t;
    }
  }

  lemma QuoteOpens(st: Lexer)
    requires !InStringOrComment(st.current)
    ensures Step(st, '"') == Lexer(Token(StringLiteral, ""), st.emitted + Pending(st.current))
  {
  }

  lemma QuoteCloses(e: seq<Token>, t: string)
    ensures Step(Lexer(Token(StringLiteral, t), e), '"') == Lexer(Blank, e + [Token(StringLiteral, t)])
  {
  }

  /** String literals: the quotes delimit and are not stored, and the bytes
      between them become the token's text exactly. */
  lemma StringLiteralRoundTrip(st: Lexer, t: string)
    requires !InStringOrComment(st.current)
    requires PlainStringText(t)
    ensures Run(st, "\"" + t + "\"") ==
      Lexer(Blank, st.emitted + Pending(st.current) + [Token(StringLiteral, t)])
  {
    var q: string := ['"'];
    var e := st.emitted + Pending(st.current);
    var started := Lexer(Token(StringLiteral, ""), e);
    var body := Lexer(Token(StringLiteral, t), e);
    assert Run(st, "\"" + t + "\"") == Run(started, t + q) by {
      assert "\"" + t + "\"" == q + (t + q);
      RunAppend(st, q, t + q);
      RunOne(st, '"');
      QuoteOpens(st);
    }
    assert Run(started, t + q) == Run(body, q) by {
      RunAppend(started, t, q);
      OpenStringBody(e, t);
    }
    RunOne(body, '"');
    QuoteCloses(e, t);
  }

  /** The bytes of a freshly opened string literal become its text. */
  lemma OpenStringBody(e: seq<Token>, t: string)
    requires PlainStringText(t)
    ensures Run(Lexer(Token(StringLiteral, ""), e), t) == Lexer(Token(StringLiteral, t), e)
  {
    StringBody(e, "", t);
    assert "" + t == t;
  }

  /** Why string text must not start with `//`: the retagging test of the
      `/` branch does not look at the mode, so a string opened with `//`
      turns into a comment, whose closing quote is then dropped. */
  lemma QuotedSlashesOpenComment(st: Lexer)
    requires !InStringOrComment(st.current)
    ensures Run(st, "\"//") == Lexer(Token(Comment, "//"), st.emitted + Pending(st.current))
  {
    var e := st.emitted + Pending(st.current);
    QuoteOpens(st);
    var started := Lexer(Token(StringLiteral, ""), e);
    var half := Lexer(Token(StringLiteral, "/"), e);
    assert Step(started, '/') == half;
    assert Step(half, '/') == Lexer(Token(Comment, "//"), e);
    assert "\"//" == ['"'] + (['/'] + ['/']);
    RunCons(st, '"', ['/'] + ['/']);
    RunCons(started, '/', ['/']);
    RunOne(half, '/');
  }

  /** The bytes of `t` without its quotes: what a comment keeps of them. */
  function DropQuotes(t: string): (r: string)
    ensures '"' !in r
    ensures |r| <= |t|
  {
    if |t| == 0 then ""
    else if t[0] == '"' then DropQuotes(t[1..])
    else [t[0]] + DropQuotes(t[1..])
  }

  lemma {:induction false} CommentBody(e: seq<Token>, pre: string, t: string)
    requires forall k | 0 <= k < |t| :: !IsLineBreak(t[k])
    ensures Run(Lexer(Token(Comment, pre), e), t) == Lexer(Token(Comment, pre + DropQuotes(t)), e)
    decreases |t|
  {
    if |t| == 0 {
      assert pre + DropQuotes(t) == pre;
    } else {
      var rest := t[1..];
      var kept := Kept(t[0]);
      CommentStep(e, pre, t[0]);
      assert forall k | 0 <= k < |rest| :: rest[k] == t[k + 1];
      CommentBody(e, pre + kept, rest);
      assert DropQuotes(t) == kept + DropQuotes(rest);
      AppendAssoc(pre, kept, DropQuotes(rest));
    }
  }

  lemma AppendAssoc(a: string, b: string, c: string)
    ensures (a + b) + c == a + (b + c)
  {
  }

  /** What a comment keeps of one byte: nothing of a quote. */
  function Kept(c: char): string {
    if c == '"' then [] else [c]
  }

  lemma CommentStep(e: seq<Token>, pre: string, c: char)
    requires !IsLineBreak(c)
    ensures Step(Lexer(Token(Comment, pre), e), c) == Lexer(Token(Comment, pre + Kept(c)), e)
  {
    if c == '"' {
      assert pre + Kept(c) == pre;
    } else {
      LiteralStep(Lexer(Token(Comment, pre), e), c);
    }
  }

  lemma SlashesOpenComment(st: Lexer)
    requires st.current == Blank
    ensures Step(st, '/') == Lexer(Token(ArithmeticOperator, "/"), st.emitted)
    ensures Step(Lexer(Token(ArithmeticOperator, "/"), st.emitted), '/') == Lexer(Token(Comment, "//"), st.emitted)
  {
  }

  lemma LineBreakEnds(st: Lexer, c: char)
    requires IsLineBreak(c)
    ensures Step(st, c) == Lexer(Blank, st.emitted + Pending(st.current))
  {
  }

  /** Line comments: `//` on an empty accumulator opens a comment that only a
      CR or LF ends; it keeps every byte of the line except quotes. */
  lemma LineCommentRoundTrip(st: Lexer, t: string, eol: char)
    requires st.current == Blank
    requires forall k | 0 <= k < |t| :: !IsLineBreak(t[k])
    requires IsLineBreak(eol)
    ensures Run(st, "//" + t + [eol]) ==
      Lexer(Blank, st.emitted + [Token(Comment, "//" + DropQuotes(t))])
  {
    var started := Lexer(Token(Comment, "//"), st.emitted);
    var body := Lexer(Token(Comment, "//" + DropQuotes(t)), st.emitted);
    assert "//" + t + [eol] == "//" + (t + [eol]);
    SlashesThen(st, t + [eol]);
    CommentLine(st.emitted, "//", t, eol);
  }

  /** `//` on an empty accumulator leaves an open comment holding "//". */
  lemma SlashesThen(st: Lexer, rest: string)
    requires st.current == Blank
    ensures Run(st, "//" + rest) == Run(Lexer(Token(Comment, "//"), st.emitted), rest)
  {
    var half := Lexer(Token(ArithmeticOperator, "/"), st.emitted);
    SlashesOpenComment(st);
    assert "//" + rest == ['/'] + (['/'] + rest);
    RunCons(st, '/', ['/'] + rest);
    RunCons(half, '/', rest);
  }

  /** An open comment takes the rest of the line and is pushed at its end. */
  lemma CommentLine(e: seq<Token>, pre: string, t: string, eol: char)
    requires forall k | 0 <= k < |t| :: !IsLineBreak(t[k])
    requires IsLineBreak(eol)
    ensures Run(Lexer(Token(Comment, pre), e), t + [eol]) == Lexer(Blank, e + [Token(Comment, pre + DropQuotes(t))])
  {
    var body := Lexer(Token(Comment, pre + DropQuotes(t)), e);
    RunAppend(Lexer(Token(Comment, pre), e), t, [eol]);
    CommentBody(e, pre, t);
    RunOne(body, eol);
    LineBreakEnds(body, eol);
  }
}

=== FILE: tokens.dfy ===
/** The token model of src/main.cpp: an immutable (kind, text) pair.

    `WhiteSpace` is the accumulator's "nothing pending" tag; the tokenizer
    never emits a token carrying it. `GarbageType` and `Keyword` exist in the
    enumeration but no branch of the tokenizer ever assigns them. */
module Tokens {

  datatype TokenKind =
    | GarbageType
    | WhiteSpace
    | Comment
    | Keyword
    | Identifier
    | NumericLiteral
    | StringLiteral
    | AccessOperator
    | ArithmeticOperator
    | LogicOperator
    | PointerOperator
    | Punctuator

  datatype Token = Token(kind: TokenKind, text: string)

  /** The empty accumulator every flush resets to, and the token a cursor
      sees once it has run past the end of a token sequence. */
  const Blank: Token := Token(WhiteSpace, "")

  /** A `PUNCTUATOR` token spelled exactly `s` (the `NOT_DELIMETER` test). */
  predicate IsPunct(t: Token, s: string) {
    t.kind == Punctuator && t.text == s
  }

  /** The accumulator's mode in which almost every byte is literal text. */
  predicate InStringOrComment(t: Token) {
    t.kind == StringLiteral || t.kind == Comment
  }

  predicate IsDigit(c: char) {
    '0' <= c <= '9'
  }

  /** `_`, `A`-`Z` and `a`-`z`: the bytes that start or extend an identifier. */
  predicate IsWordChar(c: char) {
    c == '_' || 'A' <= c <= 'Z' || 'a' <= c <= 'z'
  }

  /** The one-byte punctuators that are emitted on their own. */
  predicate IsSinglePunct(c: char) {
    c == '{' || c == '}' || c == '(' || c == ')' || c == ';' || c == ',' || c == '@'
  }

  predicate IsLogicChar(c: char) {
    c == '!' || c == '&' || c == '|' || c == '>' || c == '<'
  }

  /** The operator bytes that share the `ARITHMETIC_OPERATOR` branch with `/`. */
  predicate IsArithChar(c: char) {
    c == '+' || c == '-' || c == '^' || c == '='
  }

  predicate IsLineBreak(c: char) {
    c == '\r' || c == '\n'
  }

  predicate IsBlankChar(c: char) {
    c == '\t' || c == ' '
  }

  /** `c_str()` of a `std::string`: the text up to its first NUL byte, which
      is all a `const char *` key comparison or `setId` sees. */
  function CStr(s: string): (r: string)
    ensures r <= s
    ensures '\0' !in r
    ensures |r| < |s| ==> s[|r|] == '\0'
  {
    if |s| == 0 || s[0] == '\0' then "" else [s[0]] + CStr(s[1..])
  }
}
